=== FILE: README.md ===
# visirdata log analyser — a Dafny model

`visirdata.py` reads a server log and builds frequency tables from it. The log is either an Apache access log or an SSH/PAM authentication log. The tables count lines per client address, per country and per SSH user, with success and failure tallies. The program then draws a "top 10" pie chart from each table.

This project models the core of that program:

- the administrator-address filter (`rm_adm_ips`);
- detection of the log dialect from the first line;
- the per-line loop of `main`;
- the three fill functions;
- the chart data that `plot_fig` builds: the sorted top ten, the labels and values, and the inner ring of the users chart.

## Model structure

- **`PyRegex`** (`py_regex.dfy`) models the fragment of Python's `re` that the program's patterns use:
  - fixed character runs, `\d`, `\s`, `\S` and `.`;
  - greedy optional groups, and greedy or lazy repeats.
  
  Matching is done by depth-first backtracking, in Python's priority order. `re.search` tries start positions from left to right. The matcher is proved sound and complete with respect to a relational meaning (`IsPath`). Python's choice among matches is stated independently as a priority order (`Preferred`): a greedy piece prefers longer, a lazy one shorter, an optional group taking its text. The match `re.search` returns is proved to be the leftmost one and, among matches from that start, the first in that order (`PythonMatch`); so its text is unique (`MatchText`).
- **`LogPatterns`** (`log_patterns.dfy`) writes the program's regular expressions in that form. It also says in plain terms what `mark.*<ip>` means.
- **`PyDict`** (`py_dict.dfy`) models a Python dict with string keys. It keeps the insertion order, which `sorted` relies on to break ties. It also provides the counting idiom `if k not in d: d[k] = 1 else: d[k] += 1`.
- **`DialectDetector`** (`dialect_detector.dfy`) models the first `with` block of `main`.
- **`Text`** (`text.dfy`) holds the string helpers several modules share: `t` occurs in `s` at position `i`, and Python's `t in s`.
- **`LineClassifier`** (`line_classifier.dfy`) extracts from one line:
  - the address the line is counted under;
  - the outcome spans and user names of `fill_usr_data`;
  - the address of a PAM report.
- **`Tally`** (`tally.dfy`) holds the nine dictionaries of `main` as one value. It gives each fill function and each loop turn as a function on that value. The lemmas here state what the loop keeps and what the final counts mean.
- **`FrequencyAggregator`** (`frequency_aggregator.dfy`) is a class whose methods update the tables in place, in the order the source does. Each method is proved equal to its `Tally` function.
- **`ChartData`** (`chart_data.dfy`) models the data `plot_fig` builds:
  - `sorted(top.items(), key=itemgetter(1), reverse=True)[:10]`, as a stable descending selection sort;
  - the loops that collect labels, values and inner-ring counts.
- **`AdminFilter`** (`admin_filter.dfy`) models `rm_adm_ips` twice: once as written, and once as the filter it evidently means (see Findings).
- **`Analysis`** (`analysis.dfy`) models `main` end to end.

The geolocation lookup (`requests.get` on freegeoip plus the JSON decoding) becomes a function parameter, `resolve`. `Tally` records each address that `resolve` is asked about in a `queries` sequence.

### Behaviour of the code worth knowing

- **Dialect detection.** Both tests run, the Apache test first and then the SSH test. A first line that passes both is therefore classified SSH, because the later test overrides the earlier one.
- **The filter.** With the shipped empty address list, the filter writes nothing. It is not a pass-through. See Findings.
- **Single-digit days.** The SSH stamp test `\S{3} \d{2} \d{2}:\d{2}:\d{2}` (visirdata.py:154) needs a two-digit day. Syslog pads days 1 to 9 with a space ("Jan  3 10:00:01"), so an SSH log whose first line falls on one of those days is classified default and nothing is counted. `DialectDetector.Detect` reproduces this.
- **The address pattern.** The dots in `\d{1,3}.\d{1,3}.\d{1,3}.\d{1,3}` are not escaped, so any character other than a newline separates the digit groups. `LogPatterns.DotsMatchAnything` shows this.

## Model

| member | source | states |
|---|---|---|
| PyDict.Put | visirdata.py:86 | assigning `d[k] = v` sets k to v, leaves other keys and values alone, keeps the keys distinct and in step with the map; a present key keeps its place in the key order, a new key goes last |
| PyDict.Add | visirdata.py:127-130 | the "insert or add" idiom raises k's value by n, leaves every other key's value and presence alone, keeps the dict well formed; the key order is unchanged for a present key and gains k at the end otherwise |
| PyDict.Incr | visirdata.py:76-79 | the counting idiom raises k's count by exactly one, puts k in the dict, leaves every other key alone; a new key goes last in the key order, a present one keeps its place |
| PyDict.TotalAdd | visirdata.py:127-130 | adding n to one entry raises the sum of all values by exactly n |
| PyRegex.Lit | visirdata.py:89 | `re.escape(s)` gives one literal atom per character of s |
| PyRegex.LitMatches | visirdata.py:89 | an escaped literal matches a text exactly when the text is the literal |
| PyRegex.RunLength | visirdata.py:151 | a repeat takes at most `limit` characters, all of its class, and stops early only at a character outside the class |
| PyRegex.Ends | visirdata.py:95 | the candidate ends listed for a piece are exactly the positions at which the piece matches |
| PyRegex.RepeatEndsExact | visirdata.py:95 | a lazy or greedy repeat matches up to e exactly when e lies between min and the longest run of its class |
| PyRegex.FirstPath | visirdata.py:165 | a match found by backtracking at position i is a genuine match that starts at i (`re.match` when i = 0) |
| PyRegex.FirstPathComplete | visirdata.py:165 | backtracking misses no match: if the pattern matches from b[0], a match is found there |
| PyRegex.SearchFrom | visirdata.py:151 | a match found from position i on is a genuine match starting at i or later |
| PyRegex.Search | visirdata.py:151 | `re.search` succeeds exactly when the pattern occurs anywhere; the match it returns is genuine, starts no later than any other match, and is the first in Python's priority order among the matches from that start |
| PyRegex.FirstPathFirst | visirdata.py:151 | the match backtracking finds from a position comes before, in Python's priority order, every other match from that position |
| PyRegex.FirstPathPreferred | visirdata.py:151 | the match backtracking finds from a position is `FirstAt`: genuine and first in priority order among the matches from there |
| PyRegex.NoneMeansNoPath | visirdata.py:151 | when backtracking finds nothing at a position, no match starts there |
| PyRegex.TryEndsFirst | visirdata.py:151 | backtracking over a piece's candidate ends stops at an end from the list, and where it stops at the same end as another match the rest is the first match from there |
| PyRegex.PreferredAntisymmetric | visirdata.py:151 | the priority order is antisymmetric: two matches each preferred to the other are the same |
| PyRegex.MatchTextUnique | visirdata.py:151 | `re.search(p, s).group(0)` is a single text: two texts of the match Python returns are equal |
| PyRegex.PreferredChars | visirdata.py:95 | a fixed-text piece takes the same text in both of two ordered matches; the order is decided by the rest |
| PyRegex.PreferredOptional | visirdata.py:95 | an optional group takes its text in the preferred match whenever the other does; with the same choice the rest decides |
| PyRegex.PreferredGreedy | visirdata.py:167 | a greedy repeat takes at least as much in the preferred match as in any other from the same start |
| PyRegex.PreferredLazy | visirdata.py:95 | a lazy repeat takes at most as much in the preferred match as in any other from the same start |
| PyRegex.SearchText | visirdata.py:151 | the text of the match `re.search` returns is `MatchText` |
| PyRegex.MatchStartText | visirdata.py:165 | the text of the match `re.match` returns is `StartText`: the first match from position 0 |
| PyRegex.TopPriorityPath | visirdata.py:167 | taking every piece's first candidate end, each non-empty, gives a genuine match |
| PyRegex.TopPriorityFirst | visirdata.py:167 | a match that takes every piece's first candidate end has no other match preferred to it: it is the one Python returns |
| PyRegex.IndexDescending | visirdata.py:167 | a greedy repeat's candidate ends are listed longest first |
| PyRegex.IndexAscending | visirdata.py:95 | a lazy repeat's candidate ends are listed shortest first |
| PyRegex.SuffixPath | visirdata.py:167 | the tail pieces of a match of `head + tail` form a match of `tail` |
| PyRegex.WindowPath | visirdata.py:167 | a match inside `match.group(0)` is a match of that substring, shifted to its start |
| LogPatterns.LaterMeaning | visirdata.py:89 | `re.search(mark + '.*' + re.escape(ip), line)` succeeds exactly when mark is followed later on the line, with no newline between them, by ip |
| LogPatterns.DotsMatchAnything | visirdata.py:151 | the address pattern accepts "1a2b3c4": its unescaped dots match any character |
| DialectDetector.Detect | visirdata.py:145-156 | the dialect is SSH exactly when the syslog stamp occurs in the first line; it is Apache exactly when the Apache head occurs and the stamp does not; otherwise it is default |
| DialectDetector.EmptyLineDefault | visirdata.py:149-156 | an empty first line (an empty file) gives the default dialect |
| LineClassifier.FirstIp | visirdata.py:167 | the inner address search succeeds exactly when an address occurs in the text; its result has the whole-address shape and is the text of the match `re.search` returns (the unique `MatchText`) |
| LineClassifier.GreedyAddress | visirdata.py:167 | in "192.168.1.1" the address search returns the whole text: the greedy `\d{1,3}` groups take three digits, not the shorter "192.168.1" |
| LineClassifier.RelevantIp | visirdata.py:162-167 | the address a line is counted under has the address shape and is text of the line; in SSH logs it is the address `re.search` finds inside the `for.*from <ip>` match, in Apache logs the address inside the `re.match` of the address pattern |
| LineClassifier.SshIp | visirdata.py:162-167 | in SSH logs the counted address has the address shape, is text of the line, and is the address found inside the match `re.search` returns for `for.*from <ip>` |
| LineClassifier.InnerIp | visirdata.py:163-174 | the address inside the match of a pattern has the address shape, is text of the line, and is the address `re.search` finds inside the match `re.search` returns for the pattern |
| LineClassifier.ApacheIp | visirdata.py:164-167 | in Apache logs the counted address has the address shape, is a prefix of the line, and is the address found inside the match `re.match` returns for the address pattern |
| LineClassifier.LockoutIp | visirdata.py:172-174 | the address of a PAM report has the address shape, is text of the line, and is the address found inside the match `re.search` returns for `PAM.*rhost=<ip>` |
| LineClassifier.RelevantIpExact | visirdata.py:162-168 | default logs count no line; an SSH line is counted exactly when `for.*from <ip>` occurs; an Apache line exactly when it starts with an address; so `.group(0)` on the inner search never fails |
| LineClassifier.LockoutIpExact | visirdata.py:172-174 | a PAM report is counted exactly when `PAM.*rhost=<ip>` occurs in the line |
| LineClassifier.OutcomeSpan | visirdata.py:89-90 | the outcome match exists exactly when the outcome text is followed later on the line by the address; its text is that of the match `re.search` returns |
| LineClassifier.FailedUser | visirdata.py:95-97 | a failed-login name is found exactly when `for (?:invalid user\s)?(.*?)\sfrom` occurs in the span, and it is the text the lazy group took in the match `re.search` returns |
| LineClassifier.FailedUserShortest | visirdata.py:95-97 | the match `re.search` returns takes `invalid user ` whenever a match from the same start can, and then its lazy name is the shortest any such match takes |
| LineClassifier.Replace | visirdata.py:114-115 | `str.replace` changes nothing when the mark is not `in` the string (in particular when the string is shorter than the mark) |
| LineClassifier.AcceptedUser | visirdata.py:112-115 | an accepted-login name is found exactly when `password for .* from` occurs in the span, and it is "password for <text of .*> from", for the match `re.search` returns, with both marks deleted |
| LineClassifier.AcceptedUserLongest | visirdata.py:112-114 | the greedy `.*` of the match `re.search` returns takes the most text any match from the same start takes |
| LineClassifier.AcceptedSpan | visirdata.py:112-114 | the text of a `password for .* from` match is the two marks around what `.*` took |
| LineClassifier.ReplaceFront | visirdata.py:114-115 | an occurrence of the mark at the front is replaced and the scan goes on after it |
| LineClassifier.ReplaceSkip | visirdata.py:114-115 | a character where the mark does not start is kept and the scan goes on from the next one |
| LineClassifier.ReplaceShift | visirdata.py:114-115 | a text free of the mark before position n leaves its tail free of it before n - 1 |
| LineClassifier.ReplaceAt | visirdata.py:114-115 | replacing in `u + mark + v`, with the mark starting nowhere inside u, keeps u, replaces that occurrence and goes on in v |
| LineClassifier.ReplaceTrailing | visirdata.py:115 | deleting " from" from `name + " from"` gives the name back when the mark starts nowhere inside it |
| LineClassifier.AcceptedUserName | visirdata.py:112-115 | when the text `.*` took in the match `re.search` returns holds neither mark, the reported user name is exactly that text |
| Tally.FillIpCountry | visirdata.py:75-86 | the address's count rises by one and no other count changes; the resolver is asked (and its answer stored) only when the address has no country yet |
| Tally.FillIpCountryKeepsInv | visirdata.py:75-86 | `fill_ipcountry_data` keeps the country table keyed exactly like the counts, and the resolver asked once per counted address |
| Tally.FailedUserOf | visirdata.py:89-97 | a failed-login name is found exactly when the outcome match exists and the user pattern occurs in its text; the name is the lazy group of the match `re.search` returns on that text |
| Tally.AcceptedUserOf | visirdata.py:106-114 | an accepted-login name is found exactly when the outcome match exists and `password for .* from` occurs in its text; the name is that match's text with both marks stripped |
| Tally.Tick | visirdata.py:98-105 | counting an optional user raises exactly that user's count by one, and nothing when no name was found |
| Tally.CountFailed | visirdata.py:89-105 | on a failed login from the address, the address's failure tally rises by one; the user's failure tally and user count rise together when a name is found; all other tables are untouched |
| Tally.CountAccepted | visirdata.py:106-123 | the same for accepted logins and the success tallies |
| Tally.FillUsr | visirdata.py:88-123 | `fill_usr_data` touches only the outcome and user tables, and keeps every user's count equal to failures plus successes |
| Tally.FillUsrTallies | visirdata.py:88-123 | `fill_usr_data` does what `UsersTallied` says: the address tallies move exactly when the outcome text is followed by the address, even when no name is found; the user tallies move exactly for the name found; no name leaves the user counts alone |
| Tally.CountFailedTallies | visirdata.py:89-105 | the failure test tallies as `FailedTallied` says: the address's failure tally moves exactly when `Failed password` is followed by the address, the user's exactly for the name found |
| Tally.CountAcceptedTallies | visirdata.py:106-123 | the success test tallies as `AcceptedTallied` says |
| Tally.FillUsrKeepsInv | visirdata.py:88-123 | `fill_usr_data` keeps the loop invariant |
| Tally.Classify | visirdata.py:162-170 | a line raises the count of exactly the address it is counted under; lockouts are untouched; a line counted under no address changes nothing; in SSH logs the outcome and user tallies move as `fill_usr_data` does for that address; non-SSH logs leave the outcome tallies, the user counts and both user tallies alone |
| Tally.ClassifyTotal | visirdata.py:166-168 | a counted line raises the sum of all address counts by one, and an uncounted line leaves it alone |
| Tally.ClassifyFound | visirdata.py:166-170 | a counted line raises that address's count by one without touching lockouts; in SSH logs the outcome and user tallies move as `fill_usr_data` does, in other logs nothing else changes |
| Tally.CountLockout | visirdata.py:171-178 | only the lockout table changes, by one for the reported address, and only in SSH logs |
| Tally.Step | visirdata.py:160-178 | one turn raises by one exactly the count of the address the line is counted under and, in SSH logs only, the lockout count of the reported address; a line counted under no address changes only lockouts; in SSH logs the outcome and user tallies move as `fill_usr_data` does for the counted address; non-SSH logs leave the outcome and user tables alone |
| Tally.Run | visirdata.py:158-178 | the loop keeps the invariant: the country table keyed exactly like the counts, resolver queries once per counted address in first-seen order, positive counts, balanced users |
| Tally.ClassifyKeepsInv | visirdata.py:162-170 | one counted line keeps the invariant |
| Tally.StepKeepsInv | visirdata.py:160-178 | one turn of the loop keeps the invariant |
| Tally.StepIpCount | visirdata.py:160-178 | one turn raises exactly the counted address's count by one, and the sum of counts by one for a counted line |
| Tally.RunCountsPerIp | visirdata.py:158-168 | each address's final count is the number of lines counted under it |
| Tally.RunCountsTotal | visirdata.py:158-168 | the sum of the address counts is the number of counted lines |
| Tally.DefaultTouchesNothing | visirdata.py:162-178 | a log of the default dialect leaves every table unchanged |
| Tally.RunCountsLockouts | visirdata.py:171-178 | each address's lockout count is its number of PAM reports in SSH logs, and zero otherwise, whatever else the line holds |
| Tally.RunLeavesCountries | visirdata.py:158-178 | the loop never touches the country totals |
| Tally.ResolverOncePerIp | visirdata.py:80-86 | from empty tables the resolver is asked about each counted address exactly once and about nothing else, and those are exactly the addresses with a country |
| Tally.CountryFold | visirdata.py:125-130 | the country loop keeps the country table well formed |
| Tally.CountryFoldShares | visirdata.py:125-130 | each country receives the sum of the counts of the addresses resolved to it |
| Tally.CountryFoldTotal | visirdata.py:125-130 | the country totals grow by the sum of the folded address counts |
| Tally.FillCountry | visirdata.py:125-130 | `fill_country_data` changes only the country totals, and each country gains the counts of the addresses resolved to it |
| Tally.CountriesSumIps | visirdata.py:179 | after the loop, each country's total is its addresses' counts, and the country totals add up to the address totals |
| FrequencyAggregator.Aggregator.constructor | visirdata.py:133-142 | all dictionaries start empty and the invariant holds |
| FrequencyAggregator.Aggregator.FillIpCountry | visirdata.py:75-86 | the in-place update equals `Tally.FillIpCountry` on the old tables |
| FrequencyAggregator.Aggregator.CountFailed | visirdata.py:89-105 | the in-place update equals `Tally.CountFailed` |
| FrequencyAggregator.Aggregator.CountAccepted | visirdata.py:106-123 | the in-place update equals `Tally.CountAccepted` |
| FrequencyAggregator.Aggregator.FillUsr | visirdata.py:88-123 | the in-place update equals `Tally.FillUsr` |
| FrequencyAggregator.Aggregator.Step | visirdata.py:160-178 | one loop turn in place equals `Tally.Step` |
| FrequencyAggregator.Aggregator.Classify | visirdata.py:162-170 | the `if match:` branch in place equals `Tally.Classify` |
| FrequencyAggregator.Aggregator.CountLockout | visirdata.py:171-178 | the PAM report test in place equals `Tally.CountLockout` |
| FrequencyAggregator.Aggregator.Run | visirdata.py:145-178 | the dialect comes from the first line, and the tables after the loop equal `Tally.Run` over all lines |
| FrequencyAggregator.Aggregator.FillCountry | visirdata.py:125-130 | the country loop in place equals `Tally.FillCountry`; only the country totals change |
| ChartData.Items | visirdata.py:29 | `top.items()` lists each key with its value, in insertion order |
| ChartData.FirstMax | visirdata.py:29 | the chosen entry has the largest count, and every earlier entry has a smaller one |
| ChartData.SortDesc | visirdata.py:29 | the sorted entries are a permutation of the input, in non-increasing order of count |
| ChartData.WithCountMembers | visirdata.py:29 | the entries of one count are exactly the input's entries with that count |
| ChartData.SortDescStable | visirdata.py:29 | the sort is stable: entries with the same count keep their input order |
| ChartData.SortDescDistinct | visirdata.py:29 | sorting distinct entries gives distinct entries |
| ChartData.BeforeWithCount | visirdata.py:29 | the relative order of two entries with count c is their order among the entries of count c |
| ChartData.ItemsPairs | visirdata.py:29 | the pairs of `top.items()` are distinct and are exactly the key-count pairs of `top` |
| ChartData.SortedPairs | visirdata.py:29 | the sorted list has one entry per key, all distinct, and holds exactly the pairs of `top` |
| ChartData.TopTen | visirdata.py:29-30 | the chart keeps min(10, len(top)) entries, each a pair of `top`, in non-increasing order of count |
| ChartData.TopTenShown | visirdata.py:29-30 | the chart shows min(10, len(top)) distinct keys of `top`, each with its own count, largest first |
| ChartData.OmittedPosition | visirdata.py:29-30 | a key left out of the chart stands after the shown entries in the sorted list |
| ChartData.TopTenMaximal | visirdata.py:29-30 | every key left out counts no more than any key shown |
| ChartData.TopTenTies | visirdata.py:29-30 | ties at the cut go to the key inserted first |
| ChartData.PlotFig | visirdata.py:28-53 | the chart's labels and values are the top ten pairs in order; the inner ring is present exactly when both nest tables are given and non-empty |
| ChartData.Slices | visirdata.py:34-53 | the loops give one label and value per top entry, and with both nest tables two ring counts per label (0 when absent); without both, no ring |
| Text.Contains | visirdata.py:18 | `t in s` holds exactly when t occurs at some position of s |
| Text.ContainsShift | visirdata.py:18 | when t does not start at the front of s, t occurs in s exactly when it occurs in s without its first character |
| AdminFilter.MentionsAny | visirdata.py:18 | `any(ip in line for ip in adm)` holds exactly when some listed address occurs in the line |
| AdminFilter.RmAdmIpsAsWritten | visirdata.py:11-19 | the nested loops as written produce `WrittenAsIs`: each line that mentions no address, once per address in the list |
| AdminFilter.WrittenAsIs | visirdata.py:16-19 | every line the loop as written outputs is a line of the log that mentions no address |
| AdminFilter.ShippedFilterWritesNothing | visirdata.py:12-19 | with the shipped empty list the filtered log is empty, whatever the log holds |
| AdminFilter.WrittenAsIsRepeats | visirdata.py:16-19 | as written, the output is the kept lines repeated once per address; with exactly one address it is the intended output |
| AdminFilter.RemoveAdminLines | visirdata.py:11-19 | the corrected filter keeps, in order, every line that mentions no address |
| AdminFilter.Kept | visirdata.py:16-19 | the intended filter's output is no longer than the log, and each of its lines is a line of the log that mentions no address |
| AdminFilter.KeptPassThrough | visirdata.py:12-19 | with no addresses the corrected filter passes the log through unchanged |
| AdminFilter.KeptExactly | visirdata.py:16-19 | a line is kept exactly when it is in the log and mentions no address |
| AdminFilter.KeptConcat | visirdata.py:16-19 | filtering a log in two parts gives the two filtered parts in sequence |
| AdminFilter.KeptIdempotent | visirdata.py:16-19 | filtering twice changes nothing more |
| Analysis.DrawCharts | visirdata.py:180-187 | SSH logs get the address, country and user charts, Apache logs the address and country charts, other logs none; each user's inner ring adds up to the user's slice |
| Analysis.UsersSplit | visirdata.py:183 | on the users chart each user's success and failure counts add up to the user's slice |
| Analysis.AnalyzeLines | visirdata.py:149-187 | the dialect is that of the first line; the tables are the loop's followed by `fill_country_data`; the country totals equal the address totals; the charts fit the dialect |
| Analysis.Analyze | visirdata.py:147-187 | the same, on the log with the administrators' lines removed |
| Analysis.AnalyzeAsWritten | visirdata.py:147-187 | as shipped, the run reads an empty file: default dialect, empty tables, no chart |

## Left out

- File I/O (`open`, `readlines`, `readline`, the fixed name `apache_filter.log`, `sys.argv`): logs are sequences of lines. Lines are taken as `readlines` gives them, with their newline.
- The geolocation request and its JSON decoding (lines 81-85) are the parameter `resolve`. Network errors, malformed JSON and a missing `country_name` are not modelled.
- Drawing: `make_autopct`, colours, `explode`, the matplotlib calls and the `print` of the image name (lines 21-26, 55-73). A chart is the data it would draw.
- The `nlines` counter (lines 133, 161) is never read, so it is not modelled.
- The unused `filtered_log` parameter of `rm_adm_ips` is not modelled.
- `\d` is modelled as the ASCII digits; Python also accepts other Unicode decimal digits in `str` patterns.
- LineClassifier.FailedUserShortest: the lazy name is proved shortest among the matches that make the same `invalid user ` choice; across both choices Python's order (the optional group first) decides, and `Preferred` states it.
- LineClassifier.AcceptedUserName: proved only for names that contain neither deletion mark. The general case is `LineClassifier.AcceptedUser`'s contract, with `str.replace` as `Replace` defines it.
- FrequencyAggregator.Aggregator: the nine dictionaries are one record-valued field, so the aliasing of Python's dict references between `main` and the fill functions is not modelled.
- FrequencyAggregator.Aggregator.FillCountry: requires every address of the country table to be counted. In the source a missing count is a `KeyError`; the loop invariant `Tally.Inv` rules that case out.

## Findings

| source | as written | input that shows it | evidently intended | confidence | as-written member | corrected member |
|---|---|---|---|---|---|---|
| visirdata.py:12-19 | the filter's test sits inside a loop over the address list, so each kept line is written once per address; with the shipped empty list nothing is written, and `main` then analyses an empty file: default dialect, no counts, no charts | any log, with `adm_ips = []` as shipped | every line that mentions no administrator address is written once; with an empty list the log passes through unchanged | high (not executed) | AdminFilter.RmAdmIpsAsWritten, AdminFilter.ShippedFilterWritesNothing, Analysis.AnalyzeAsWritten | AdminFilter.RemoveAdminLines, AdminFilter.KeptPassThrough, Analysis.Analyze |

=== FILE: admin_filter.dfy ===
/**
 * `rm_adm_ips`: the pass that copies the log into the filtered log, meant to drop the lines
 * that mention one of the administrators' addresses. The loop as written and the filter it
 * evidently means are both modelled; the rest of the model reads the filter's output.
 */
module AdminFilter {
  import opened Text

  /** The administrators' addresses as shipped: none. */
  const AdminIps: seq<string> := []

  /** `any(ip in line for ip in adm)`: the line mentions one of the addresses. */
  function MentionsAny(line: string, adm: seq<string>): (r: bool)
    ensures r <==> exists k :: 0 <= k < |adm| && Contains(line, adm[k])
  {
    if adm == [] then false
    else
      assert forall k :: 0 < k < |adm| ==> adm[k] == adm[1..][k - 1];
      Contains(line, adm[0]) || MentionsAny(line, adm[1..])
  }

  /** `n` copies of `line`. */
  function Copies(line: string, n: nat): (r: seq<string>)
    ensures |r| == n && forall k :: 0 <= k < n ==> r[k] == line
  {
    seq(n, _ => line)
  }

  /**
   * The filtered log as the loop writes it: every line that mentions no address, once per
   * address in the list; the lines that mention one are not written.
   */
  function WrittenAsIs(lines: seq<string>, adm: seq<string>): (r: seq<string>)
    ensures forall k :: 0 <= k < |r| ==> r[k] in lines && !MentionsAny(r[k], adm)
  {
    if lines == [] then []
    else
      var last := lines[|lines| - 1];
      WrittenAsIs(lines[..|lines| - 1], adm) + (if MentionsAny(last, adm) then [] else Copies(last, |adm|))
  }

  /**
   * The loop of `rm_adm_ips` as written: the test sits inside a loop over the addresses,
   * whose own variable the test shadows.
   */
  method RmAdmIpsAsWritten(lines: seq<string>, adm: seq<string>) returns (written: seq<string>)
    ensures written == WrittenAsIs(lines, adm)
  {
    written := [];
    for i := 0 to |lines|
      invariant written == WrittenAsIs(lines[..i], adm)
    {
      var line := lines[i];
      ghost var before := written;
      for j := 0 to |adm|
        invariant written == before + (if MentionsAny(line, adm) then [] else Copies(line, j))
      {
        if !MentionsAny(line, adm) {
          assert Copies(line, j + 1) == Copies(line, j) + [line];
          written := written + [line];
        }
      }
      assert lines[..i + 1][..i] == lines[..i];
    }
    assert lines[..|lines|] == lines;
  }

  /** With the shipped (empty) address list the filtered log is empty, whatever the log holds. */
  lemma {:induction false} ShippedFilterWritesNothing(lines: seq<string>)
    ensures WrittenAsIs(lines, AdminIps) == []
  {
    if lines != [] {
      ShippedFilterWritesNothing(lines[..|lines| - 1]);
    }
  }

  /** As written, each line that should be kept comes out once per address in the list. */
  lemma {:induction false} WrittenAsIsRepeats(lines: seq<string>, adm: seq<string>)
    ensures |WrittenAsIs(lines, adm)| == |adm| * |Kept(lines, adm)|
    ensures |adm| == 1 ==> WrittenAsIs(lines, adm) == Kept(lines, adm)
  {
    if lines != [] {
      var init, last := lines[..|lines| - 1], lines[|lines| - 1];
      WrittenAsIsRepeats(init, adm);
      var w, k := WrittenAsIs(init, adm), Kept(init, adm);
      assert WrittenAsIs(lines, adm) == w + (if MentionsAny(last, adm) then [] else Copies(last, |adm|));
      assert Kept(lines, adm) == k + (if MentionsAny(last, adm) then [] else [last]);
      if !MentionsAny(last, adm) {
        MulSucc(|adm|, |k|);
        if |adm| == 1 {
          assert Copies(last, 1) == [last];
        }
      }
    }
  }

  lemma MulSucc(a: nat, n: nat)
    ensures a * (n + 1) == a * n + a
  {
  }

  /** The lines without an administrator's address, each once, in log order. */
  function Kept(lines: seq<string>, adm: seq<string>): (r: seq<string>)
    ensures |r| <= |lines|
    ensures forall k :: 0 <= k < |r| ==> r[k] in lines && !MentionsAny(r[k], adm)
  {
    if lines == [] then []
    else
      var last := lines[|lines| - 1];
      Kept(lines[..|lines| - 1], adm) + (if MentionsAny(last, adm) then [] else [last])
  }

  /** The filter `rm_adm_ips` evidently means: copy every line that mentions no administrator's address. */
  method RemoveAdminLines(lines: seq<string>, adm: seq<string>) returns (kept: seq<string>)
    ensures kept == Kept(lines, adm)
  {
    kept := [];
    for i := 0 to |lines|
      invariant kept == Kept(lines[..i], adm)
    {
      var line := lines[i];
      if !MentionsAny(line, adm) {
        kept := kept + [line];
      }
      assert lines[..i + 1][..i] == lines[..i];
    }
    assert lines[..|lines|] == lines;
  }

  /** With no administrators' addresses the filter passes the log through unchanged. */
  lemma {:induction false} KeptPassThrough(lines: seq<string>)
    ensures Kept(lines, []) == lines
  {
    if lines != [] {
      KeptPassThrough(lines[..|lines| - 1]);
      assert lines[..|lines| - 1] + [lines[|lines| - 1]] == lines;
    }
  }

  /** A line is kept exactly when it is in the log and mentions no administrator's address. */
  lemma {:induction false} KeptExactly(lines: seq<string>, adm: seq<string>, line: string)
    ensures line in Kept(lines, adm) <==> line in lines && !MentionsAny(line, adm)
  {
    if lines != [] {
      KeptExactly(lines[..|lines| - 1], adm, line);
      assert lines == lines[..|lines| - 1] + [lines[|lines| - 1]];
    }
  }

  /** Filtering a log in two parts gives the two filtered parts one after the other. */
  lemma {:induction false} KeptConcat(a: seq<string>, b: seq<string>, adm: seq<string>)
    ensures Kept(a + b, adm) == Kept(a, adm) + Kept(b, adm)
    decreases |b|
  {
    if b == [] {
      assert a + b == a;
    } else {
      KeptConcat(a, b[..|b| - 1], adm);
      assert (a + b)[..|a + b| - 1] == a + b[..|b| - 1];
    }
  }

  /** Filtering twice changes nothing more. */
  lemma {:induction false} KeptIdempotent(lines: seq<string>, adm: seq<string>)
    ensures Kept(Kept(lines, adm), adm) == Kept(lines, adm)
  {
    if lines != [] {
      var init, last := lines[..|lines| - 1], lines[|lines| - 1];
      KeptIdempotent(init, adm);
      KeptConcat(Kept(init, adm), if MentionsAny(last, adm) then [] else [last], adm);
      if !MentionsAny(last, adm) {
        assert Kept([last], adm) == Kept([], adm) + [last];
      }
    }
  }
}

=== FILE: analysis.dfy ===
/**
 * `main`: filter the log, detect its dialect from the first line, count every line,
 * total the countries and chart the tables that belong to the dialect.
 */
module Analysis {
  import opened Wrappers
  import opened PyDict
  import opened DialectDetector
  import opened AdminFilter
  import opened ChartData
  import Tally
  import FrequencyAggregator

  /**
   * The charts `main` draws for dialect `d` from tables `t`: an SSH log gets the address,
   * country and user charts, an Apache log the address and country charts, any other log none.
   */
  ghost predicate Charted(d: Dialect, t: Tally.Tables, charts: seq<Chart>) {
    && (d == Default ==> charts == [])
    && (d == Apache ==> (
      && |charts| == 2
      && charts[0].title == "Top 10 IPs" && charts[0].image == "apacheip"
      && Depicts(charts[0], t.ipCount, None, None)
      && charts[1].title == "Top 10 Countries" && charts[1].image == "apachecountry"
      && Depicts(charts[1], t.countryCount, None, None)))
    && (d == Ssh ==> (
      && |charts| == 3
      && charts[0].title == "Top 10 IPs" && charts[0].image == "sship"
      && Depicts(charts[0], t.ipCount, None, None)
      && charts[1].title == "Top 10 Countries" && charts[1].image == "sshcountry"
      && Depicts(charts[1], t.countryCount, None, None)
      && charts[2].title == "Top 10 Users" && charts[2].image == "sshusers"
      && Depicts(charts[2], t.userCount, Some(t.userSuccess), Some(t.userFailed))))
  }

  /**
   * The end of `main`: the `plot_fig` calls for the detected dialect. On the users chart the
   * inner ring splits every user's slice into its successes and its failures.
   */
  method DrawCharts(d: Dialect, t: Tally.Tables) returns (charts: seq<Chart>)
    requires Valid(t.ipCount) && Valid(t.countryCount) && Valid(t.userCount) && Tally.Balanced(t)
    ensures Charted(d, t, charts)
    ensures d == Ssh && Given(Some(t.userSuccess)) && Given(Some(t.userFailed)) ==>
      forall k :: 0 <= k < |charts[2].values| ==>
        charts[2].nest[2 * k] + charts[2].nest[2 * k + 1] == charts[2].values[k]
  {
    charts := [];
    if d == Ssh {
      var ips := PlotFig(t.ipCount, "Top 10 IPs", "sship", None, None);
      var countries := PlotFig(t.countryCount, "Top 10 Countries", "sshcountry", None, None);
      var users := PlotFig(t.userCount, "Top 10 Users", "sshusers", Some(t.userSuccess), Some(t.userFailed));
      charts := [ips, countries, users];
      UsersSplit(t, users);
    } else if d == Apache {
      var ips := PlotFig(t.ipCount, "Top 10 IPs", "apacheip", None, None);
      var countries := PlotFig(t.countryCount, "Top 10 Countries", "apachecountry", None, None);
      charts := [ips, countries];
    }
  }

  /**
   * `main` from the dialect test on, run on the filtered log `lines`; `resolve` stands for
   * the geolocation service. The tables are those the loop and `fill_country_data` leave,
   * and the country totals add up to the address totals.
   */
  method AnalyzeLines(lines: seq<string>, resolve: string -> string)
    returns (d: Dialect, tables: Tally.Tables, charts: seq<Chart>)
    ensures d == DialectOf(FirstLine(lines))
    ensures var run := Tally.Run(Tally.NoTables(), d, lines, resolve);
      Tally.Inv(run) && run.countryCount == Empty() && tables == Tally.FillCountry(run)
    ensures Total(tables.countryCount) == Total(tables.ipCount)
    ensures Charted(d, tables, charts)
  {
    var aggregator := new FrequencyAggregator.Aggregator();
    d := aggregator.Run(lines, resolve);
    ghost var run := aggregator.tables;
    Tally.RunLeavesCountries(Tally.NoTables(), d, lines, resolve);
    aggregator.FillCountry();
    tables := aggregator.tables;
    Tally.CountriesSumIps(run);
    charts := DrawCharts(d, tables);
  }

  /** The whole run with the corrected filter: the analysis sees the lines without an administrator's address. */
  method Analyze(log: seq<string>, adm: seq<string>, resolve: string -> string)
    returns (d: Dialect, tables: Tally.Tables, charts: seq<Chart>)
    ensures d == DialectOf(FirstLine(Kept(log, adm)))
    ensures var run := Tally.Run(Tally.NoTables(), d, Kept(log, adm), resolve);
      Tally.Inv(run) && run.countryCount == Empty() && tables == Tally.FillCountry(run)
    ensures Total(tables.countryCount) == Total(tables.ipCount)
    ensures Charted(d, tables, charts)
  {
    var lines := RemoveAdminLines(log, adm);
    d, tables, charts := AnalyzeLines(lines, resolve);
  }

  /**
   * The whole run as the program ships: the filter writes nothing, so the analysis reads
   * an empty file, finds the default dialect, counts nothing and draws no chart.
   */
  method AnalyzeAsWritten(log: seq<string>, resolve: string -> string)
    returns (d: Dialect, tables: Tally.Tables, charts: seq<Chart>)
    ensures d == Default && tables == Tally.NoTables() && charts == []
  {
    var lines := RmAdmIpsAsWritten(log, AdminIps);
    ShippedFilterWritesNothing(log);
    EmptyLineDefault();
    d, tables, charts := AnalyzeLines(lines, resolve);
  }

  /**
   * On the users chart, the inner ring splits every user's slice into its successes and
   * its failures.
   */
  lemma UsersSplit(t: Tally.Tables, c: Chart)
    requires Valid(t.userCount) && Tally.Balanced(t)
    requires Depicts(c, t.userCount, Some(t.userSuccess), Some(t.userFailed))
    ensures Given(Some(t.userSuccess)) && Given(Some(t.userFailed)) ==>
      forall k :: 0 <= k < |c.values| ==> c.nest[2 * k] + c.nest[2 * k + 1] == c.values[k]
  {
    TopTenShown(t.userCount);
    if Given(Some(t.userSuccess)) && Given(Some(t.userFailed)) {
      forall k | 0 <= k < |c.values| ensures c.nest[2 * k] + c.nest[2 * k + 1] == c.values[k] {
        var e := ChartData.TopTen(t.userCount)[k];
        assert e == Entry(c.labels[k], c.values[k]);
        assert Get(t.userCount, e.key) == c.values[k];
      }
    }
  }
}

=== FILE: chart_data.dfy ===
/**
 * The data behind one pie chart of `plot_fig`: the entries of a count table in Python's
 * `sorted(top.items(), key=itemgetter(1), reverse=True)` order, the first ten of them, and
 * the labels, values and inner-ring counts built from them.
 */
module ChartData {
  import opened Wrappers
  import opened PyDict

  /** One `(label, value)` pair of `top.items()`. */
  datatype Entry = Entry(key: string, count: nat)

  /** How many slices a chart shows. */
  const Slots: nat := 10

  function Min(a: nat, b: nat): nat {
    if a <= b then a else b
  }

  /** `list(d.items())`: the pairs in insertion order. */
  function Items(d: Dict<nat>): (r: seq<Entry>)
    requires forall k :: k in d.keys ==> k in d.m
    ensures |r| == |d.keys|
    ensures forall i :: 0 <= i < |r| ==> r[i] == Entry(d.keys[i], d.m[d.keys[i]])
  {
    seq(|d.keys|, i requires 0 <= i < |d.keys| => Entry(d.keys[i], d.m[d.keys[i]]))
  }

  ghost predicate Distinct<T>(xs: seq<T>) {
    forall i, j :: 0 <= i < j < |xs| ==> xs[i] != xs[j]
  }

  ghost predicate NonIncreasing(xs: seq<Entry>) {
    forall i, j :: 0 <= i < j < |xs| ==> xs[i].count >= xs[j].count
  }

  /** The position of the first entry with the largest count. */
  function FirstMax(xs: seq<Entry>): (i: nat)
    requires xs != []
    ensures i < |xs|
    ensures forall j :: 0 <= j < |xs| ==> xs[j].count <= xs[i].count
    ensures forall j :: 0 <= j < i ==> xs[j].count < xs[i].count
  {
    if |xs| == 1 then 0
    else
      var k := FirstMax(xs[..|xs| - 1]);
      if xs[|xs| - 1].count > xs[k].count then |xs| - 1 else k
  }

  /**
   * `sorted(..., key=itemgetter(1), reverse=True)`: the first largest entry leads, then the
   * rest sorted the same way. The result is a permutation of `xs` in non-increasing order.
   */
  function SortDesc(xs: seq<Entry>): (r: seq<Entry>)
    ensures multiset(r) == multiset(xs)
    ensures NonIncreasing(r)
    decreases |xs|
  {
    if xs == [] then []
    else
      var i := FirstMax(xs);
      var tail := SortDesc(xs[..i] + xs[i + 1..]);
      LeaderFirst(xs, i, tail);
      [xs[i]] + tail
  }

  lemma SplitAt(xs: seq<Entry>, i: nat)
    requires i < |xs|
    ensures xs == xs[..i] + ([xs[i]] + xs[i + 1..])
  {
    assert xs == xs[..i] + xs[i..];
  }

  /** Putting the largest entry in front of the sorted rest gives a sorted permutation. */
  lemma LeaderFirst(xs: seq<Entry>, i: nat, tail: seq<Entry>)
    requires i < |xs| && forall j :: 0 <= j < |xs| ==> xs[j].count <= xs[i].count
    requires multiset(tail) == multiset(xs[..i] + xs[i + 1..]) && NonIncreasing(tail)
    ensures multiset([xs[i]] + tail) == multiset(xs)
    ensures NonIncreasing([xs[i]] + tail)
  {
    assert xs == xs[..i] + [xs[i]] + xs[i + 1..];
    forall j | 0 <= j < |tail| ensures tail[j].count <= xs[i].count {
      assert tail[j] in multiset(xs[..i] + xs[i + 1..]);
      assert tail[j] in xs;
    }
    var r := [xs[i]] + tail;
    forall p, q | 0 <= p < q < |r| ensures r[p].count >= r[q].count {
      assert r[q] == tail[q - 1];
      if p > 0 {
        assert r[p] == tail[p - 1];
      }
    }
  }

  /** The entries with count `c`, in their order in `xs`. */
  function WithCount(xs: seq<Entry>, c: nat): seq<Entry> {
    if xs == [] then []
    else (if xs[0].count == c then [xs[0]] else []) + WithCount(xs[1..], c)
  }

  /** Exactly the entries of `xs` with count `c` are kept. */
  lemma {:induction false} WithCountMembers(xs: seq<Entry>, c: nat, e: Entry)
    ensures e in WithCount(xs, c) <==> e in xs && e.count == c
  {
    if xs != [] {
      WithCountMembers(xs[1..], c, e);
      assert xs == [xs[0]] + xs[1..];
    }
  }

  lemma {:induction false} WithCountConcat(a: seq<Entry>, b: seq<Entry>, c: nat)
    ensures WithCount(a + b, c) == WithCount(a, c) + WithCount(b, c)
  {
    if a != [] {
      var h := if a[0].count == c then [a[0]] else [];
      assert (a + b)[0] == a[0];
      assert (a + b)[1..] == a[1..] + b;
      WithCountConcat(a[1..], b, c);
      assert WithCount(a + b, c) == h + (WithCount(a[1..], c) + WithCount(b, c));
      assert WithCount(a, c) == h + WithCount(a[1..], c);
    } else {
      assert a + b == b;
    }
  }

  /** No entry of `xs` has count `c`. */
  lemma {:induction false} WithCountNone(xs: seq<Entry>, c: nat)
    requires forall j :: 0 <= j < |xs| ==> xs[j].count != c
    ensures WithCount(xs, c) == []
  {
    if xs != [] {
      WithCountNone(xs[1..], c);
    }
  }

  /** The sort is stable: the entries of each count keep their relative order. */
  lemma {:induction false} SortDescStable(xs: seq<Entry>, c: nat)
    ensures WithCount(SortDesc(xs), c) == WithCount(xs, c)
    decreases |xs|
  {
    if xs != [] {
      var i := FirstMax(xs);
      var head, after := xs[..i], xs[i + 1..];
      var tail := SortDesc(head + after);
      SplitAt(xs, i);
      assert SortDesc(xs) == [xs[i]] + tail;
      SortDescStable(head + after, c);
      if xs[i].count == c {
        WithCountNone(head, c);
      }
      LeaderKeepsOrder(head, xs[i], after, tail, c);
    }
  }

  /**
   * Moving `x` in front of the entries before it keeps the order of each count, provided
   * none of those entries has the count of `x`.
   */
  lemma LeaderKeepsOrder(head: seq<Entry>, x: Entry, after: seq<Entry>, tail: seq<Entry>, c: nat)
    requires WithCount(tail, c) == WithCount(head + after, c)
    requires x.count == c ==> WithCount(head, c) == []
    ensures WithCount([x] + tail, c) == WithCount(head + ([x] + after), c)
  {
    WithCountConcat([x], tail, c);
    WithCountConcat(head, after, c);
    WithCountConcat(head, [x] + after, c);
    WithCountConcat([x], after, c);
    if x.count == c {
      assert WithCount([x], c) == [x];
    } else {
      assert WithCount([x], c) == [];
    }
  }

  /** Sorting keeps the entries distinct. */
  lemma {:induction false} SortDescDistinct(xs: seq<Entry>)
    requires Distinct(xs)
    ensures Distinct(SortDesc(xs))
    decreases |xs|
  {
    if xs != [] {
      var i := FirstMax(xs);
      var tail := SortDesc(xs[..i] + xs[i + 1..]);
      assert SortDesc(xs) == [xs[i]] + tail;
      DropKeepsDistinct(xs, i);
      SortDescDistinct(xs[..i] + xs[i + 1..]);
      LeaderDistinct(xs[i], xs[..i] + xs[i + 1..], tail);
    }
  }

  /** Removing one entry from a sequence of distinct entries leaves distinct entries without it. */
  lemma DropKeepsDistinct(xs: seq<Entry>, i: nat)
    requires i < |xs| && Distinct(xs)
    ensures Distinct(xs[..i] + xs[i + 1..]) && xs[i] !in xs[..i] + xs[i + 1..]
  {
    var rest := xs[..i] + xs[i + 1..];
    forall p | 0 <= p < |rest| ensures rest[p] == xs[if p < i then p else p + 1] {
    }
  }

  lemma LeaderDistinct(x: Entry, rest: seq<Entry>, tail: seq<Entry>)
    requires Distinct(tail) && x !in rest && multiset(tail) == multiset(rest)
    ensures Distinct([x] + tail)
  {
    assert x !in multiset(tail);
    var r := [x] + tail;
    forall p, q | 0 <= p < q < |r| ensures r[p] != r[q] {
      assert r[q] == tail[q - 1];
      if p > 0 {
        assert r[p] == tail[p - 1];
      } else {
        assert tail[q - 1] in tail;
      }
    }
  }

  /** `x` stands somewhere before `y` in `xs`. */
  ghost predicate Before(xs: seq<Entry>, x: Entry, y: Entry) {
    exists p, q :: 0 <= p < q < |xs| && xs[p] == x && xs[q] == y
  }

  /** Keeping the entries of one count does not change the order of those entries. */
  lemma BeforeWithCount(xs: seq<Entry>, c: nat, x: Entry, y: Entry)
    requires x.count == c && y.count == c
    ensures Before(xs, x, y) <==> Before(WithCount(xs, c), x, y)
  {
    if Before(xs, x, y) {
      BeforeKept(xs, c, x, y);
    }
    if Before(WithCount(xs, c), x, y) {
      BeforeFromKept(xs, c, x, y);
    }
  }

  lemma {:induction false} BeforeKept(xs: seq<Entry>, c: nat, x: Entry, y: Entry)
    requires x.count == c && y.count == c && Before(xs, x, y)
    ensures Before(WithCount(xs, c), x, y)
  {
    var p, q :| 0 <= p < q < |xs| && xs[p] == x && xs[q] == y;
    var t := xs[1..];
    var hs := if xs[0].count == c then [xs[0]] else [];
    var w := WithCount(t, c);
    assert WithCount(xs, c) == hs + w;
    assert t[q - 1] == y;
    if p > 0 {
      assert t[p - 1] == x;
      BeforeKept(t, c, x, y);
      var p', q' :| 0 <= p' < q' < |w| && w[p'] == x && w[q'] == y;
      assert (hs + w)[p' + |hs|] == x && (hs + w)[q' + |hs|] == y;
    } else {
      WithCountMembers(t, c, y);
      var q' :| 0 <= q' < |w| && w[q'] == y;
      assert (hs + w)[0] == x && (hs + w)[q' + 1] == y;
    }
  }

  lemma {:induction false} BeforeFromKept(xs: seq<Entry>, c: nat, x: Entry, y: Entry)
    requires x.count == c && y.count == c && Before(WithCount(xs, c), x, y)
    ensures Before(xs, x, y)
  {
    var t := xs[1..];
    var hs := if xs[0].count == c then [xs[0]] else [];
    var w := WithCount(t, c);
    assert WithCount(xs, c) == hs + w;
    var p, q :| 0 <= p < q < |hs + w| && (hs + w)[p] == x && (hs + w)[q] == y;
    assert w[q - |hs|] == y;
    if p >= |hs| {
      assert w[p - |hs|] == x;
      BeforeFromKept(t, c, x, y);
      var p', q' :| 0 <= p' < q' < |t| && t[p'] == x && t[q'] == y;
      assert xs[p' + 1] == x && xs[q' + 1] == y;
    } else {
      WithCountMembers(t, c, y);
      var q' :| 0 <= q' < |t| && t[q'] == y;
      assert xs[0] == x && xs[q' + 1] == y;
    }
  }

  /** The ten largest entries of `top`, as `sorted(top.items(), ...)[:10]`. */
  function TopTen(top: Dict<nat>): (r: seq<Entry>)
    requires forall k :: k in top.keys ==> k in top.m
    ensures |r| == Min(Slots, |top.keys|)
    ensures forall k :: 0 <= k < |r| ==> r[k] in Items(top)
    ensures NonIncreasing(r)
  {
    var sorted := SortDesc(Items(top));
    SortedPrefix(Items(top), Min(Slots, |sorted|));
    sorted[..Min(Slots, |sorted|)]
  }

  /** A prefix of the sorted entries is sorted and holds only entries of the input. */
  lemma SortedPrefix(xs: seq<Entry>, n: nat)
    requires n <= |SortDesc(xs)|
    ensures |SortDesc(xs)| == |xs|
    ensures forall k :: 0 <= k < n ==> SortDesc(xs)[..n][k] in xs
    ensures NonIncreasing(SortDesc(xs)[..n])
  {
    var r := SortDesc(xs);
    assert |multiset(r)| == |multiset(xs)|;
    forall k | 0 <= k < n ensures r[..n][k] in xs {
      assert r[k] in multiset(r);
    }
  }

  /** Whether `key` is among the labels of `r`. */
  ghost predicate Chosen(r: seq<Entry>, key: string) {
    exists k :: 0 <= k < |r| && r[k].key == key
  }

  /** `a` was inserted into `top` before `b`. */
  ghost predicate InsertedBefore(top: Dict<nat>, a: string, b: string) {
    exists p, q :: 0 <= p < q < |top.keys| && top.keys[p] == a && top.keys[q] == b
  }

  /** The pairs of `top.items()` are distinct, and they are exactly the key-count pairs of `top`. */
  lemma ItemsPairs(top: Dict<nat>)
    requires Valid(top)
    ensures Distinct(Items(top))
    ensures forall e :: e in Items(top) <==> e.key in top.m && e.count == top.m[e.key]
  {
    var items := Items(top);
    forall p, q | 0 <= p < q < |items| ensures items[p] != items[q] {
      assert top.keys[p] != top.keys[q];
    }
    forall e: Entry | e.key in top.m && e.count == top.m[e.key] ensures e in items {
      var p :| 0 <= p < |top.keys| && top.keys[p] == e.key;
      assert items[p] == e;
    }
  }

  /** The sorted entries are the pairs of `top`, each once. */
  lemma SortedPairs(top: Dict<nat>)
    requires Valid(top)
    ensures |SortDesc(Items(top))| == |top.keys|
    ensures Distinct(SortDesc(Items(top)))
    ensures forall e :: e in SortDesc(Items(top)) <==> e.key in top.m && e.count == top.m[e.key]
  {
    var items := Items(top);
    var s := SortDesc(items);
    assert |multiset(s)| == |multiset(items)|;
    ItemsPairs(top);
    SortDescDistinct(items);
    assert forall e: Entry :: e in s <==> e in multiset(items);
  }

  /** A prefix of distinct, sorted pairs of `top` shows distinct keys of `top`, largest first. */
  lemma PrefixShown(top: Dict<nat>, s: seq<Entry>, r: seq<Entry>)
    requires Distinct(s) && NonIncreasing(s)
    requires forall e :: e in s ==> e.key in top.m && e.count == top.m[e.key]
    requires |r| <= |s| && r == s[..|r|]
    ensures forall k :: 0 <= k < |r| ==> r[k].key in top.m && r[k].count == top.m[r[k].key]
    ensures forall k, l :: 0 <= k < l < |r| ==> r[k].key != r[l].key && r[k].count >= r[l].count
  {
    forall k | 0 <= k < |r| ensures r[k].key in top.m && r[k].count == top.m[r[k].key] {
      assert r[k] == s[k] && s[k] in s;
    }
    forall k, l | 0 <= k < l < |r| ensures r[k].key != r[l].key && r[k].count >= r[l].count {
      assert r[k] == s[k] && s[k] in s && r[l] == s[l] && s[l] in s;
    }
  }

  /** The chart shows min(10, len(top)) distinct keys of `top`, each with its count, largest first. */
  lemma TopTenShown(top: Dict<nat>)
    requires Valid(top)
    ensures |TopTen(top)| == Min(Slots, |top.keys|)
    ensures forall k :: 0 <= k < |TopTen(top)| ==>
      TopTen(top)[k].key in top.m && TopTen(top)[k].count == top.m[TopTen(top)[k].key]
    ensures forall k, l :: 0 <= k < l < |TopTen(top)| ==>
      TopTen(top)[k].key != TopTen(top)[l].key && TopTen(top)[k].count >= TopTen(top)[l].count
  {
    TopTenPrefix(top);
    SortedPairs(top);
    PrefixShown(top, SortDesc(Items(top)), TopTen(top));
  }

  /** An entry of `s` whose key the prefix `r` does not show stands past that prefix. */
  lemma PastPrefix(s: seq<Entry>, r: seq<Entry>, e: Entry) returns (j: nat)
    requires |r| <= |s| && r == s[..|r|] && e in s && !Chosen(r, e.key)
    ensures |r| <= j < |s| && s[j] == e
  {
    assert forall k :: 0 <= k < |r| ==> s[k] == r[k] && r[k].key != e.key;
    j :| 0 <= j < |s| && s[j] == e;
  }

  /** The chart's entries are the first entries of the sorted ones. */
  lemma TopTenPrefix(top: Dict<nat>)
    requires forall k :: k in top.keys ==> k in top.m
    ensures |TopTen(top)| <= |SortDesc(Items(top))|
    ensures TopTen(top) == SortDesc(Items(top))[..|TopTen(top)|]
  {
  }

  /** A key of `top` that is not shown stands past the shown ones in the sorted entries. */
  lemma OmittedPosition(top: Dict<nat>, key: string) returns (j: nat)
    requires Valid(top) && key in top.m && !Chosen(TopTen(top), key)
    ensures |TopTen(top)| <= j < |SortDesc(Items(top))|
    ensures SortDesc(Items(top))[j] == Entry(key, top.m[key])
  {
    TopTenPrefix(top);
    SortedPairs(top);
    j := PastPrefix(SortDesc(Items(top)), TopTen(top), Entry(key, top.m[key]));
  }

  /** Every key left out of the chart counts no more than any key shown. */
  lemma TopTenMaximal(top: Dict<nat>, key: string)
    requires Valid(top) && key in top.m && !Chosen(TopTen(top), key)
    ensures forall k :: 0 <= k < |TopTen(top)| ==> top.m[key] <= TopTen(top)[k].count
  {
    var s := SortDesc(Items(top));
    var j := OmittedPosition(top, key);
    var r := TopTen(top);
    TopTenPrefix(top);
    forall k | 0 <= k < |r| ensures top.m[key] <= r[k].count {
      assert r[k] == s[k];
    }
  }

  /** Two sorted entries with the same count keep the order they had before sorting. */
  lemma TieOrder(items: seq<Entry>, k: nat, j: nat)
    requires k < j < |SortDesc(items)| && SortDesc(items)[k].count == SortDesc(items)[j].count
    ensures Before(items, SortDesc(items)[k], SortDesc(items)[j])
  {
    var s := SortDesc(items);
    var c := s[k].count;
    assert Before(s, s[k], s[j]);
    BeforeWithCount(s, c, s[k], s[j]);
    SortDescStable(items, c);
    BeforeWithCount(items, c, s[k], s[j]);
  }

  /** Order among the pairs of `top.items()` is insertion order of their keys. */
  lemma ItemsBefore(top: Dict<nat>, x: Entry, y: Entry)
    requires forall k :: k in top.keys ==> k in top.m
    requires Before(Items(top), x, y)
    ensures InsertedBefore(top, x.key, y.key)
  {
    var items := Items(top);
    var p, q :| 0 <= p < q < |items| && items[p] == x && items[q] == y;
    assert top.keys[p] == x.key && top.keys[q] == y.key;
  }

  /** Ties at the cut are broken by insertion order: a shown key was inserted before a left-out key with the same count. */
  lemma TopTenTies(top: Dict<nat>, key: string, k: nat)
    requires Valid(top) && key in top.m && !Chosen(TopTen(top), key)
    requires k < |TopTen(top)| && top.m[key] == TopTen(top)[k].count
    ensures InsertedBefore(top, TopTen(top)[k].key, key)
  {
    var s := SortDesc(Items(top));
    var j := OmittedPosition(top, key);
    TopTenPrefix(top);
    assert TopTen(top)[k] == s[k];
    TieOrder(Items(top), k, j);
    ItemsBefore(top, s[k], s[j]);
  }

  /** Python's truth value of an optional dictionary argument: given and not empty. */
  predicate Given(d: Option<Dict<nat>>) {
    d.Some? && d.value.keys != []
  }

  /** One chart: its title, the image file name, and the data drawn. */
  datatype Chart = Chart(title: string, image: string, labels: seq<string>, values: seq<nat>, nest: seq<nat>)

  /**
   * The chart shows the ten largest entries of `top`, and an inner ring from `nest1` and
   * `nest2` exactly when both are given.
   */
  ghost predicate Depicts(c: Chart, top: Dict<nat>, nest1: Option<Dict<nat>>, nest2: Option<Dict<nat>>) {
    && (forall k :: k in top.keys ==> k in top.m)
    && |c.labels| == |c.values| == |TopTen(top)|
    && (forall k :: 0 <= k < |c.labels| ==> TopTen(top)[k] == Entry(c.labels[k], c.values[k]))
    && (Given(nest1) && Given(nest2) ==> InnerRing(c.labels, nest1.value, nest2.value, c.nest))
    && (!(Given(nest1) && Given(nest2)) ==> c.nest == [])
  }

  /**
   * `plot_fig(top, title, img, nest1, nest2)` up to the drawing: the ten largest entries of
   * `top`, then the labels, values and inner ring collected from them.
   */
  method PlotFig(top: Dict<nat>, title: string, image: string, nest1: Option<Dict<nat>>, nest2: Option<Dict<nat>>)
    returns (c: Chart)
    requires Valid(top)
    ensures c.title == title && c.image == image
    ensures |c.labels| == |c.values| == |TopTen(top)|
    ensures forall k :: 0 <= k < |c.labels| ==> TopTen(top)[k] == Entry(c.labels[k], c.values[k])
    ensures Given(nest1) && Given(nest2) ==> InnerRing(c.labels, nest1.value, nest2.value, c.nest)
    ensures !(Given(nest1) && Given(nest2)) ==> c.nest == []
  {
    var top10 := TopTen(top);
    var labels, values, nest := Slices(top10, nest1, nest2);
    c := Chart(title, image, labels, values, nest);
  }

  /** For each label its count in `nest1`, then in `nest2`, 0 when absent. */
  ghost predicate InnerRing(labels: seq<string>, nest1: Dict<nat>, nest2: Dict<nat>, nest: seq<nat>) {
    && |nest| == 2 * |labels|
    && forall k :: 0 <= k < |labels| ==>
         nest[2 * k] == Get(nest1, labels[k]) && nest[2 * k + 1] == Get(nest2, labels[k])
  }

  /**
   * The loops of `plot_fig` over `top_10`: every entry gives a label and a value and, when
   * both inner-ring tables are given, two inner-ring counts. Without both tables there is
   * no inner ring and `nest` stays empty.
   */
  method Slices(top10: seq<Entry>, nest1: Option<Dict<nat>>, nest2: Option<Dict<nat>>)
    returns (labels: seq<string>, values: seq<nat>, nest: seq<nat>)
    ensures |labels| == |values| == |top10|
    ensures forall k :: 0 <= k < |labels| ==> top10[k] == Entry(labels[k], values[k])
    ensures Given(nest1) && Given(nest2) ==> InnerRing(labels, nest1.value, nest2.value, nest)
    ensures !(Given(nest1) && Given(nest2)) ==> nest == []
  {
    labels, values, nest := [], [], [];
    if Given(nest1) && Given(nest2) {
      for i := 0 to |top10|
        invariant |labels| == |values| == i
        invariant forall k :: 0 <= k < i ==> top10[k] == Entry(labels[k], values[k])
        invariant InnerRing(labels, nest1.value, nest2.value, nest)
      {
        var key, count := top10[i].key, top10[i].count;
        labels := labels + [key];
        values := values + [count];
        if key in nest1.value.m {
          nest := nest + [nest1.value.m[key]];
        } else {
          nest := nest + [0];
        }
        if key in nest2.value.m {
          nest := nest + [nest2.value.m[key]];
        } else {
          nest := nest + [0];
        }
      }
    } else {
      for i := 0 to |top10|
        invariant |labels| == |values| == i
        invariant forall k :: 0 <= k < i ==> top10[k] == Entry(labels[k], values[k])
      {
        var key, count := top10[i].key, top10[i].count;
        labels := labels + [key];
        values := values + [count];
      }
    }
  }
}

=== FILE: dialect_detector.dfy ===
/** Choosing the log dialect from the first line of the filtered log (`main`, the first `with` block). */
module DialectDetector {
  import opened Wrappers
  import opened PyRegex
  import opened LogPatterns

  datatype Dialect = Apache | Ssh | Default

  /**
   * The dialect of a log whose first line is `first`: a syslog time stamp anywhere makes it
   * SSH, even when the Apache head is there too; else the Apache head makes it Apache.
   */
  ghost function DialectOf(first: string): Dialect {
    if Occurs(SshStamp, first) then Ssh
    else if Occurs(ApacheHead, first) then Apache
    else Default
  }

  /** The detection as the source does it: start at "default", then run both tests in turn. */
  method Detect(first: string) returns (d: Dialect)
    ensures d == DialectOf(first)
    ensures d == Ssh <==> Occurs(SshStamp, first)
    ensures d == Apache <==> Occurs(ApacheHead, first) && !Occurs(SshStamp, first)
  {
    d := Default;
    var m := Search(ApacheHead, first);
    if m.Some? {
      d := Apache;
    }
    m := Search(SshStamp, first);
    if m.Some? {
      d := Ssh;
    }
  }

  /** The first line the detector reads: `readline()` gives "" on an empty file. */
  function FirstLine(lines: seq<string>): string {
    if lines == [] then "" else lines[0]
  }

  /** An empty log (`readline()` gives "") has the default dialect. */
  lemma EmptyLineDefault()
    ensures DialectOf("") == Default
  {
    assert Ends(SshStamp[0], "", 0) == [];
    assert Search(SshStamp, "").None?;
    assert ApacheHead[0] == Octet;
    assert Ends(ApacheHead[0], "", 0) == [];
    assert FirstPath(ApacheHead, "", 0).None?;
    assert Search(ApacheHead, "").None?;
  }
}

=== FILE: frequency_aggregator.dfy ===
/**
 * The run's dictionaries as one object whose methods update them in place, in the order
 * the source does: `fill_ipcountry_data`, `fill_usr_data`, the main loop and
 * `fill_country_data`. Each method is specified by the matching function of `Tally`.
 */
module FrequencyAggregator {
  import opened Wrappers
  import opened PyDict
  import opened LogPatterns
  import opened DialectDetector
  import opened LineClassifier
  import Tally

  class Aggregator {
    /**
     * The dictionaries `main` creates and hands to the fill functions, which update them in
     * place (`ip_count`, `ip_success`, `ip_failed`, `ip_lockout`, `user_count`, `user_success`,
     * `user_failed`, `ip_country`, `country_count`), and the addresses sent to the geolocation
     * service so far.
     */
    var tables: Tally.Tables

    /** All tables start empty, and nothing has been sent to the service. */
    constructor ()
      ensures tables == Tally.NoTables()
      ensures Tally.Inv(tables)
    {
      tables := Tally.NoTables();
      Tally.NoTablesInv();
    }

    /** `fill_ipcountry_data(ip, ip_count, ip_country)`; `resolve` stands for the geolocation request. */
    method FillIpCountry(ip: string, resolve: string -> string)
      modifies this
      ensures tables == Tally.FillIpCountry(old(tables), ip, resolve)
    {
      tables := tables.(ipCount := Incr(tables.ipCount, ip));
      if ip !in tables.ipCountry.m {
        tables := tables.(queries := tables.queries + [ip]);
        var country := resolve(ip);
        tables := tables.(ipCountry := Put(tables.ipCountry, ip, country));
      }
    }

    /** `fill_usr_data(line, ip, ...)`: the failed-login test, then the accepted-login test. */
    method FillUsr(line: string, ip: string)
      modifies this
      ensures tables == Tally.FillUsr(old(tables), line, ip)
    {
      CountFailed(line, ip);
      CountAccepted(line, ip);
    }

    /** The failed-login half of `fill_usr_data`. */
    method CountFailed(line: string, ip: string)
      modifies this
      ensures tables == Tally.CountFailed(old(tables), line, ip)
    {
      var span := OutcomeSpan(FailedMark, line, ip);
      if span.Some? {
        tables := tables.(ipFailed := Incr(tables.ipFailed, ip));
        var user := FailedUser(span.value);
        assert user == Tally.FailedUserOf(line, ip);
        if user.Some? {
          tables := tables.(userCount := Incr(tables.userCount, user.value));
          tables := tables.(userFailed := Incr(tables.userFailed, user.value));
        }
      }
    }

    /** The accepted-login half of `fill_usr_data`. */
    method CountAccepted(line: string, ip: string)
      modifies this
      ensures tables == Tally.CountAccepted(old(tables), line, ip)
    {
      var span := OutcomeSpan(AcceptedMark, line, ip);
      if span.Some? {
        tables := tables.(ipSuccess := Incr(tables.ipSuccess, ip));
        var user := AcceptedUser(span.value);
        assert user == Tally.AcceptedUserOf(line, ip);
        if user.Some? {
          tables := tables.(userCount := Incr(tables.userCount, user.value));
          tables := tables.(userSuccess := Incr(tables.userSuccess, user.value));
        }
      }
    }

    /**
     * The body of `main` from the dialect test to the end of the loop: the dialect comes from
     * the first line, then every line is classified and counted in turn.
     */
    method Run(lines: seq<string>, resolve: string -> string) returns (d: Dialect)
      modifies this
      ensures d == DialectOf(FirstLine(lines))
      ensures tables == Tally.Run(old(tables), d, lines, resolve)
    {
      d := Detect(FirstLine(lines));
      for i := 0 to |lines|
        invariant tables == Tally.Run(old(tables), d, lines[..i], resolve)
      {
        Step(d, lines[i], resolve);
        assert lines[..i + 1][..i] == lines[..i];
      }
      assert lines[..|lines|] == lines;
    }

    /** One turn of the main loop: the address test of the dialect, then the PAM report test. */
    method Step(d: Dialect, line: string, resolve: string -> string)
      modifies this
      ensures tables == Tally.Step(old(tables), d, line, resolve)
    {
      Classify(d, line, resolve);
      CountLockout(d, line);
    }

    /** The `if match:` branch of the main loop. */
    method Classify(d: Dialect, line: string, resolve: string -> string)
      modifies this
      ensures tables == Tally.Classify(old(tables), d, line, resolve)
    {
      var ip := RelevantIp(d, line);
      if ip.Some? {
        FillIpCountry(ip.value, resolve);
        if d == Ssh {
          FillUsr(line, ip.value);
        }
      }
    }

    /** The PAM report test of the main loop, run on every line of an SSH log. */
    method CountLockout(d: Dialect, line: string)
      modifies this
      ensures tables == Tally.CountLockout(old(tables), d, line)
    {
      if d == Ssh {
        var lockout := LockoutIp(line);
        if lockout.Some? {
          tables := tables.(ipLockout := Incr(tables.ipLockout, lockout.value));
        }
      }
    }

    /** `fill_country_data(ip_count, ip_country, country_count)`; a missing count is a KeyError in the source. */
    method FillCountry()
      requires forall ip :: ip in tables.ipCountry.keys ==> ip in tables.ipCountry.m && ip in tables.ipCount.m
      modifies this
      ensures tables == Tally.FillCountry(old(tables))
    {
      var ips := tables.ipCountry.keys;
      for i := 0 to |ips|
        invariant forall ip :: ip in ips[..i] ==> ip in ips
        invariant tables.ipCountry == old(tables).ipCountry && tables.ipCount == old(tables).ipCount
        invariant tables == old(tables).(countryCount := Tally.CountryFold(old(tables).countryCount, ips[..i], tables.ipCountry.m, tables.ipCount.m))
      {
        var ip := ips[i];
        var country := tables.ipCountry.m[ip];
        tables := tables.(countryCount := Add(tables.countryCount, country, tables.ipCount.m[ip]));
        assert ips[..i + 1][..i] == ips[..i];
      }
      assert ips[..|ips|] == ips;
    }
  }
}

=== FILE: line_classifier.dfy ===
/**
 * What the analyser extracts from one log line: the address a relevant line is counted
 * under, the outcome spans and user names of SSH logins, and the address of a PAM report.
 */
module LineClassifier {
  import opened Wrappers
  import opened PyRegex
  import opened LogPatterns
  import opened DialectDetector
  import opened Text

  /**
   * `re.search(IP, span).group(0)`: the text of the match Python returns for the address pattern.
   * None is where the source would fail on `.group(0)`; `RelevantIpExact` and
   * `LockoutIpExact` show that the source never gets there.
   */
  function FirstIp(span: string): (r: Option<string>)
    ensures r.Some? <==> Occurs(IpAddress, span)
    ensures r.Some? ==> IpShaped(r.value)
    ensures r.Some? ==> MatchText(IpAddress, span, r.value)
  {
    match Search(IpAddress, span)
    case Some(b) => WholeMatch(span, b); SearchText(IpAddress, span); Some(Group0(IpAddress, span, b))
    case None => None
  }

  lemma WholeMatch(span: string, b: seq<nat>)
    requires IsPath(IpAddress, span, b)
    ensures IpShaped(Group0(IpAddress, span, b))
  {
    WindowPath(IpAddress, span, b, b[0], b[|IpAddress|]);
  }

  /** The address found inside the part `line[lo..hi]` of a line is text of the line. */
  lemma FirstIpInWindow(line: string, lo: nat, hi: nat)
    requires lo <= hi <= |line|
    ensures FirstIp(line[lo..hi]).Some? ==>
      exists i, j :: lo <= i <= j <= hi && FirstIp(line[lo..hi]).value == line[i..j]
  {
    var w := line[lo..hi];
    if FirstIp(w).Some? {
      var b := Search(IpAddress, w).value;
      assert IsPath(IpAddress, w, b) && FirstIp(w).value == w[b[0]..b[|IpAddress|]];
      SliceOfWindow(line, lo, hi, lo + b[0], lo + b[|IpAddress|]);
    }
  }

  /** `x` is `re.search(IP, re.search(p, line).group(0)).group(0)`: the address inside the match of `p`. */
  ghost predicate InnerAddress(p: Pattern, line: string, x: string) {
    exists w :: MatchText(p, line, w) && MatchText(IpAddress, w, x)
  }

  /** `x` is `re.search(IP, re.match(IP, line).group(0)).group(0)`. */
  ghost predicate LeadingAddress(line: string, x: string) {
    exists w :: StartText(IpAddress, line, w) && MatchText(IpAddress, w, x)
  }

  /**
   * The address a line is counted under (the `if match:` branch of the main loop): in SSH mode
   * the address inside the `for.*from <ip>` match, in Apache mode the address inside the
   * `re.match` of the address pattern, in default mode none. It is always text of the line.
   */
  function RelevantIp(d: Dialect, line: string): (r: Option<string>)
    ensures r.Some? ==> IpShaped(r.value)
    ensures r.Some? ==> exists i, j :: 0 <= i <= j <= |line| && r.value == line[i..j]
    ensures d == Ssh && r.Some? ==> InnerAddress(SshLogin, line, r.value)
    ensures d == Apache && r.Some? ==> LeadingAddress(line, r.value)
  {
    match d
    case Default => None
    case Ssh => SshIp(line)
    case Apache => ApacheIp(line)
  }

  /** SSH mode: the address inside the `for.*from <ip>` match. */
  function SshIp(line: string): (r: Option<string>)
    ensures r.Some? ==> IpShaped(r.value)
    ensures r.Some? ==> exists i, j :: 0 <= i <= j <= |line| && r.value == line[i..j]
    ensures r.Some? ==> InnerAddress(SshLogin, line, r.value)
  {
    InnerIp(SshLogin, line)
  }

  /** The address inside the leftmost match of `p` on the line, when both searches succeed. */
  function InnerIp(p: Pattern, line: string): (r: Option<string>)
    ensures r.Some? ==> IpShaped(r.value)
    ensures r.Some? ==> exists i, j :: 0 <= i <= j <= |line| && r.value == line[i..j]
    ensures r.Some? ==> InnerAddress(p, line, r.value)
  {
    match Search(p, line)
    case None => None
    case Some(b) =>
      FirstIpInWindow(line, b[0], b[|p|]);
      SearchText(p, line);
      FirstIp(Group0(p, line, b))
  }

  /** Apache mode: `re.match` of the address pattern, then the address inside that match, a prefix of the line. */
  function ApacheIp(line: string): (r: Option<string>)
    ensures r.Some? ==> IpShaped(r.value)
    ensures r.Some? ==> exists n :: 0 <= n <= |line| && r.value == line[..n]
    ensures r.Some? ==> exists i, j :: 0 <= i <= j <= |line| && r.value == line[i..j]
    ensures r.Some? ==> LeadingAddress(line, r.value)
  {
    match FirstPath(IpAddress, line, 0)
    case None => None
    case Some(b) =>
      FirstIpAtStart(line, b);
      MatchStartText(IpAddress, line);
      FirstIp(Group0(IpAddress, line, b))
  }

  /** The digit groups are greedy: in "192.168.1.1" the whole text is the address, not "192.168.1". */
  lemma GreedyAddress()
    ensures FirstIp("192.168.1.1") == Some("192.168.1.1")
  {
    var s := "192.168.1.1";
    var g: seq<nat> := [0, 3, 4, 7, 8, 9, 10, 11];
    ExamplePath();
    var b := Search(IpAddress, s).value;
    assert b[0] <= g[0];
    assert Preferred(IpAddress, s, b, g);
    TopPriorityFirst(IpAddress, s, b, g);
    assert s[0..11] == s;
  }

  /** In "192.168.1.1" each digit group takes all its digits, and that vector is a match. */
  lemma ExamplePath()
    ensures IsPath(IpAddress, "192.168.1.1", [0, 3, 4, 7, 8, 9, 10, 11])
    ensures TopPriority(IpAddress, "192.168.1.1", [0, 3, 4, 7, 8, 9, 10, 11])
  {
    var s := "192.168.1.1";
    var g: seq<nat> := [0, 3, 4, 7, 8, 9, 10, 11];
    ExampleEnds();
    forall k | 0 <= k < |IpAddress|
      ensures g[k] <= |s| && Ends(IpAddress[k], s, g[k]) != [] && g[k + 1] == Ends(IpAddress[k], s, g[k])[0]
    {
      if k % 2 == 0 {
        assert IpAddress[k] == Octet;
      } else {
        assert IpAddress[k] == AnyChar;
      }
    }
    TopPriorityPath(IpAddress, s, g);
  }

  lemma ExampleEnds()
    ensures Ends(Octet, "192.168.1.1", 0) == [3, 2, 1]
    ensures Ends(Octet, "192.168.1.1", 4) == [7, 6, 5]
    ensures Ends(Octet, "192.168.1.1", 8) == [9]
    ensures Ends(Octet, "192.168.1.1", 10) == [11]
    ensures Ends(AnyChar, "192.168.1.1", 3) == [4]
    ensures Ends(AnyChar, "192.168.1.1", 7) == [8]
    ensures Ends(AnyChar, "192.168.1.1", 9) == [10]
  {
    var s := "192.168.1.1";
    assert RunLength(Digit, s, 0, 3) == 3;
    assert RunLength(Digit, s, 4, 3) == 3;
    assert RunLength(Digit, s, 8, 3) == 1;
    assert RunLength(Digit, s, 10, 1) == 1;
  }

  /** The address inside a match at the start of the line is a prefix of the line. */
  lemma FirstIpAtStart(line: string, b: seq<nat>)
    requires IsPath(IpAddress, line, b) && b[0] == 0
    ensures FirstIp(Group0(IpAddress, line, b)).Some?
    ensures exists n :: 0 <= n <= |line| && FirstIp(Group0(IpAddress, line, b)).value == line[..n]
    ensures exists i, j :: 0 <= i <= j <= |line| && FirstIp(Group0(IpAddress, line, b)).value == line[i..j]
  {
    var e := b[|IpAddress|];
    var w := line[0..e];
    assert Group0(IpAddress, line, b) == w;
    WindowPath(IpAddress, line, b, 0, e);
    var first := Shift(b, 0);
    assert IsPath(IpAddress, w, first) && first[0] == 0;
    var n := PrefixMatch(w, first);
    SliceOfWindow(line, 0, e, 0, n);
    assert FirstIp(w).value == line[0..n];
  }

  /** When a match starts at 0, the address found in `w` is a prefix `w[..n]`. */
  lemma PrefixMatch(w: string, first: seq<nat>) returns (n: nat)
    requires IsPath(IpAddress, w, first) && first[0] == 0
    ensures n <= |w| && FirstIp(w) == Some(w[0..n])
  {
    assert Occurs(IpAddress, w);
    var c := Search(IpAddress, w).value;
    assert LeftmostMatch(IpAddress, w, c);
    assert IsPath(IpAddress, w, c) && c[0] <= first[0];
    n := c[|IpAddress|];
  }

  /** The address of a PAM `rhost=` report: the address inside the `PAM.*rhost=<ip>` match. */
  function LockoutIp(line: string): (r: Option<string>)
    ensures r.Some? ==> IpShaped(r.value)
    ensures r.Some? ==> exists i, j :: 0 <= i <= j <= |line| && r.value == line[i..j]
    ensures r.Some? ==> InnerAddress(Lockout, line, r.value)
  {
    InnerIp(Lockout, line)
  }

  /** A match of `head + IpAddress` holds a whole address, so the address search inside it succeeds. */
  lemma TailAddressFound(head: Pattern, line: string, b: seq<nat>)
    requires IsPath(head + IpAddress, line, b)
    ensures FirstIp(Group0(head + IpAddress, line, b)).Some?
  {
    var p := head + IpAddress;
    SuffixPath(head, IpAddress, line, b);
    var c := b[|head|..];
    assert c[|IpAddress|] == b[|p|];
    assert b[0] <= b[|head|];
    WindowPath(IpAddress, line, c, b[0], b[|p|]);
  }

  /**
   * A line is counted exactly when the dialect's relevance pattern matches it (for Apache,
   * at the very start of the line), and what it is counted under has the address shape.
   */
  lemma RelevantIpExact(d: Dialect, line: string)
    ensures d == Default ==> RelevantIp(d, line).None?
    ensures d == Ssh ==> (RelevantIp(d, line).Some? <==> Occurs(SshLogin, line))
    ensures d == Apache ==>
      (RelevantIp(d, line).Some? <==> exists b :: IsPath(IpAddress, line, b) && b[0] == 0)
  {
    match d
    case Default =>
    case Ssh =>
      if Occurs(SshLogin, line) {
        TailAddressFound(LoginHead, line, Search(SshLogin, line).value);
      }
    case Apache =>
      if exists b :: IsPath(IpAddress, line, b) && b[0] == 0 {
        var b :| IsPath(IpAddress, line, b) && b[0] == 0;
        FirstPathComplete(IpAddress, line, b);
        var c := FirstPath(IpAddress, line, 0).value;
        TailAddressFound([], line, c);
      }
  }

  /** A PAM report is counted exactly when `PAM.*rhost=<ip>` occurs in the line. */
  lemma LockoutIpExact(line: string)
    ensures LockoutIp(line).Some? <==> Occurs(Lockout, line)
  {
    if Occurs(Lockout, line) {
      TailAddressFound(LockoutHead, line, Search(Lockout, line).value);
    }
  }

  /** `re.search(mark + '.*' + re.escape(ip), line).group(0)` */
  function OutcomeSpan(mark: string, line: string, ip: string): (r: Option<string>)
    ensures r.Some? <==> Reports(line, mark, ip)
    ensures r.Some? ==> MatchText(Later(mark, ip), line, r.value)
  {
    LaterMeaning(mark, ip, line);
    match Search(Later(mark, ip), line)
    case None => None
    case Some(b) => SearchText(Later(mark, ip), line); Some(Group0(Later(mark, ip), line, b))
  }

  /** The user name of a failed login: group 1 of `for (?:invalid user\s)?(.*?)\sfrom` in the span. */
  function FailedUser(span: string): (r: Option<string>)
    ensures r.Some? <==> Occurs(FailedUserPattern, span)
    ensures r.Some? ==> FailedName(span, r.value)
  {
    match Search(FailedUserPattern, span)
    case None => None
    case Some(b) => FailedWitness(span, b); Some(Group(FailedUserPattern, span, b, 2))
  }

  /** `x` is the text the lazy group took in the match `re.search` returns for the failed-login user pattern. */
  ghost predicate FailedName(span: string, x: string) {
    exists b :: PythonMatch(FailedUserPattern, span, b) && |b| == 5 && b[2] <= b[3] <= |span| && x == span[b[2]..b[3]]
  }

  lemma FailedWitness(span: string, b: seq<nat>)
    requires PythonMatch(FailedUserPattern, span, b)
    ensures FailedName(span, Group(FailedUserPattern, span, b, 2))
  {
  }

  /**
   * In the match `re.search` returns, `invalid user ` is taken whenever a match from the same
   * start can take it, and the lazy name is the shortest any such match takes.
   */
  lemma FailedUserShortest(span: string, b: seq<nat>, c: seq<nat>)
    requires PythonMatch(FailedUserPattern, span, b)
    requires IsPath(FailedUserPattern, span, c) && c[0] == b[0]
    ensures c[2] <= b[2]
    ensures c[2] == b[2] ==> b[3] <= c[3]
  {
    var p := FailedUserPattern;
    assert Preferred(p, span, b, c);
    PreferredChars(p, span, b, c);
    PreferredOptional(p[1..], span, b[1..], c[1..]);
    if c[2] == b[2] {
      assert p[1..][1..] == p[2..];
      PreferredLazy(p[2..], span, b[2..], c[2..]);
    }
  }

  /** `s.replace(mark, with)`: every occurrence, left to right, without overlaps. */
  function Replace(s: string, mark: string, with: string): (r: string)
    requires mark != []
    ensures |s| < |mark| ==> r == s
    ensures !Contains(s, mark) ==> r == s
    decreases |s|
  {
    if |s| < |mark| then s
    else if s[..|mark|] == mark then with + Replace(s[|mark|..], mark, with)
    else [s[0]] + Replace(s[1..], mark, with)
  }

  /** No occurrence of `mark` starting before `n` in `s` leaves none starting before `n - 1` in `s[1..]`. */
  lemma ReplaceShift(s: string, mark: string, n: nat)
    requires |s| >= 1 && n >= 1
    ensures FreeBefore(s, mark, n) ==> FreeBefore(s[1..], mark, n - 1)
  {
    if FreeBefore(s, mark, n) {
      forall i | 0 <= i < n - 1 ensures !OccursAt(s[1..], mark, i) {
        assert !OccursAt(s, mark, i + 1);
        if i + |mark| <= |s| - 1 {
          assert s[1..][i..i + |mark|] == s[i + 1..i + 1 + |mark|];
        }
      }
    }
  }

  /** The user name of an accepted login: the `password for .* from` match with both marks deleted. */
  function AcceptedUser(span: string): (r: Option<string>)
    ensures r.Some? <==> Occurs(AcceptedUserPattern, span)
    ensures r.Some? ==> AcceptedName(span, r.value)
  {
    match Search(AcceptedUserPattern, span)
    case None => None
    case Some(b) => AcceptedWitness(span, b); Some(StripMarks(Group0(AcceptedUserPattern, span, b)))
  }

  /** `.replace('password for ', '').replace(' from', '')` */
  function StripMarks(s: string): string {
    Replace(Replace(s, "password for ", ""), " from", "")
  }

  /**
   * `x` is what deleting both marks leaves of `password for <name> from`, where `<name>` is the
   * text the `.*` took in the match `re.search` returns for `password for .* from` in `span`.
   */
  ghost predicate AcceptedName(span: string, x: string) {
    exists b ::
      PythonMatch(AcceptedUserPattern, span, b) && |b| == 4 && b[1] <= b[2] <= |span| && x == StripMarks("password for " + span[b[1]..b[2]] + " from")
  }

  lemma AcceptedWitness(span: string, b: seq<nat>)
    requires PythonMatch(AcceptedUserPattern, span, b)
    ensures AcceptedName(span, StripMarks(Group0(AcceptedUserPattern, span, b)))
  {
    AcceptedSpan(span, b);
  }

  /** The greedy `.*` of the accepted-login match takes the most text any match from the same start takes. */
  lemma AcceptedUserLongest(span: string, b: seq<nat>, c: seq<nat>)
    requires PythonMatch(AcceptedUserPattern, span, b)
    requires IsPath(AcceptedUserPattern, span, c) && c[0] == b[0]
    ensures c[2] <= b[2]
  {
    var p := AcceptedUserPattern;
    assert Preferred(p, span, b, c);
    PreferredChars(p, span, b, c);
    PreferredGreedy(p[1..], span, b[1..], c[1..]);
  }

  /** The text of a `password for .* from` match is the two marks around the `.*` part. */
  lemma AcceptedSpan(span: string, b: seq<nat>)
    requires IsPath(AcceptedUserPattern, span, b)
    ensures Group0(AcceptedUserPattern, span, b) == "password for " + span[b[1]..b[2]] + " from"
  {
    MarksAround("password for ", Anything, " from", span, b);
  }

  lemma MarksAround(head: string, mid: Piece, tail: string, s: string, b: seq<nat>)
    requires IsPath([Chars(Lit(head)), mid, Chars(Lit(tail))], s, b)
    ensures s[b[0]..b[3]] == head + s[b[1]..b[2]] + tail
  {
    var p := [Chars(Lit(head)), mid, Chars(Lit(tail))];
    assert PieceMatches(p[0], s[b[0]..b[1]]) && PieceMatches(p[2], s[b[2]..b[3]]);
    LitMatches(head, s[b[0]..b[1]]);
    LitMatches(tail, s[b[2]..b[3]]);
    assert b[0] <= b[1] <= b[2] <= b[3] <= |s|;
    ThreeParts(s, b[0], b[1], b[2], b[3]);
  }

  lemma ThreeParts(s: string, i: nat, j: nat, k: nat, l: nat)
    requires i <= j <= k <= l <= |s|
    ensures s[i..l] == s[i..j] + s[j..k] + s[k..l]
  {
    assert s[i..l] == s[i..j] + s[j..l];
    assert s[j..l] == s[j..k] + s[k..l];
  }

  /** An occurrence at the front is replaced. */
  lemma ReplaceFront(s: string, mark: string, with: string)
    requires mark != [] && OccursAt(s, mark, 0)
    ensures Replace(s, mark, with) == with + Replace(s[|mark|..], mark, with)
  {
    assert s[..|mark|] == mark;
  }

  /** A character where no occurrence starts is kept. */
  lemma ReplaceSkip(s: string, mark: string, with: string)
    requires mark != [] && |s| >= 1 && !OccursAt(s, mark, 0)
    ensures Replace(s, mark, with) == [s[0]] + Replace(s[1..], mark, with)
  {
    if |s| < |mark| {
      assert |s[1..]| < |mark|;
    }
  }

  /**
   * Replacing in `u + mark + v`, where the mark starts nowhere inside `u`, keeps `u`,
   * replaces that occurrence, and carries on in `v`.
   */
  lemma {:induction false} ReplaceAt(u: string, mark: string, v: string, with: string)
    requires mark != []
    requires FreeBefore(u + mark + v, mark, |u|)
    ensures Replace(u + mark + v, mark, with) == u + with + Replace(v, mark, with)
    decreases |u|
  {
    if u == [] {
      var s := u + mark + v;
      assert s == mark + v;
      ReplaceFront(s, mark, with);
      assert s[|mark|..] == v;
    } else {
      var s := u + mark + v;
      ReplaceShift(s, mark, |u|);
      assert s[1..] == u[1..] + mark + v;
      ReplaceAt(u[1..], mark, v, with);
      ReplaceSkip(s, mark, with);
      assert s[0] == u[0];
      ConsFront(u, with, Replace(v, mark, with));
    }
  }

  lemma ConsFront(u: string, w: string, x: string)
    requires u != []
    ensures [u[0]] + (u[1..] + w + x) == u + w + x
  {
    assert [u[0]] + u[1..] == u;
  }

  /**
   * Deleting a mark from a name followed by the mark gives the name back, provided the mark
   * starts nowhere inside the name.
   */
  lemma ReplaceTrailing(u: string, mark: string)
    requires mark != []
    requires FreeBefore(u + mark, mark, |u|)
    ensures Replace(u + mark, mark, "") == u
  {
    assert u + mark + [] == u + mark;
    ReplaceAt(u, mark, [], "");
  }

  /** Neither mark starts anywhere inside `u` followed by ` from`. */
  predicate FreeOfMarks(u: string) {
    && FreeBefore(u + " from", " from", |u|)
    && FreeBefore(u + " from", "password for ", |u| + 6)
  }

  /**
   * The name an accepted login reports is the text the `.*` of the leftmost
   * `password for .* from` match took, provided that text holds neither mark.
   */
  lemma AcceptedUserName(span: string, b: seq<nat>)
    requires Search(AcceptedUserPattern, span) == Some(b)
    requires FreeOfMarks(span[b[1]..b[2]])
    ensures AcceptedUser(span) == Some(span[b[1]..b[2]])
  {
    AcceptedSpan(span, b);
    StripBoth("password for ", span[b[1]..b[2]], " from");
  }

  lemma StripBoth(head: string, u: string, tail: string)
    requires head != [] && tail != []
    requires FreeBefore(u + tail, tail, |u|)
    requires FreeBefore(u + tail, head, |u| + |tail| + 1)
    ensures Replace(Replace(head + u + tail, head, ""), tail, "") == u
  {
    var s := head + u + tail;
    assert s[..|head|] == head;
    ReplaceFront(s, head, "");
    assert s[|head|..] == u + tail;
    FreeNotContains(u + tail, head);
    assert Replace(s, head, "") == u + tail;
    ReplaceTrailing(u, tail);
  }
}

=== FILE: log_patterns.dfy ===
/**
 * The regular expressions of the log analyser, written as PyRegex patterns, and what
 * some of them mean in plain terms.
 */
module LogPatterns {
  import opened PyRegex

  /** `\d{1,3}` */
  const Octet: Piece := Repeat(Digit, 1, AtMost(3), false)
  /** `.` */
  const AnyChar: Piece := Chars([Dot])
  /** `.*` */
  const Anything: Piece := Repeat(Dot, 0, NoLimit, false)

  /** `\d{1,3}.\d{1,3}.\d{1,3}.\d{1,3}`: the dots are unescaped, so they stand for any character. */
  const IpAddress: Pattern := [Octet, AnyChar, Octet, AnyChar, Octet, AnyChar, Octet]

  /** `\d{1,3}.\d{1,3}.\d{1,3}.\d{1,3} - - `: an Apache access-log line. */
  const ApacheHead: Pattern := IpAddress + [Chars(Lit(" - - "))]

  /** `\S{3} \d{2} \d{2}:\d{2}:\d{2}`: a syslog time stamp. */
  const SshStamp: Pattern := [
    Repeat(NonSpace, 3, AtMost(3), false), Chars(Lit(" ")),
    Repeat(Digit, 2, AtMost(2), false), Chars(Lit(" ")),
    Repeat(Digit, 2, AtMost(2), false), Chars(Lit(":")),
    Repeat(Digit, 2, AtMost(2), false), Chars(Lit(":")),
    Repeat(Digit, 2, AtMost(2), false)]

  /** `for.*from ` */
  const LoginHead: Pattern := [Chars(Lit("for")), Anything, Chars(Lit("from "))]
  /** `for.*from \d{1,3}.\d{1,3}.\d{1,3}.\d{1,3}`: an SSH line that names a client address. */
  const SshLogin: Pattern := LoginHead + IpAddress

  /** `PAM.*rhost=` */
  const LockoutHead: Pattern := [Chars(Lit("PAM")), Anything, Chars(Lit("rhost="))]
  /** `PAM.*rhost=\d{1,3}.\d{1,3}.\d{1,3}.\d{1,3}`: a PAM report about a remote host. */
  const Lockout: Pattern := LockoutHead + IpAddress

  /** `a.*` followed by `re.escape(b)`: the text `a`, later on the same line the text `b`. */
  function Later(a: string, b: string): Pattern {
    [Chars(Lit(a)), Anything, Chars(Lit(b))]
  }

  const FailedMark: string := "Failed password"
  const AcceptedMark: string := "Accepted"

  /** `for (?:invalid user\s)?(.*?)\sfrom`; the user name is piece 2, the lazy `.*?`. */
  const FailedUserPattern: Pattern := [
    Chars(Lit("for ")), Optional(Lit("invalid user") + [Space]),
    Repeat(Dot, 0, NoLimit, true), Chars([Space] + Lit("from"))]

  /** `password for .* from` */
  const AcceptedUserPattern: Pattern := [Chars(Lit("password for ")), Anything, Chars(Lit(" from"))]

  /** `a` at position `i`, then `b` at position `j`, with no newline between them. */
  predicate FollowedLater(line: string, a: string, i: nat, b: string, j: nat) {
    && i + |a| <= j && j + |b| <= |line|
    && line[i..i + |a|] == a && line[j..j + |b|] == b
    && forall x :: i + |a| <= x < j ==> line[x] != '\n'
  }

  /** Somewhere on the line, `a` is followed later by `b`. */
  ghost predicate Reports(line: string, a: string, b: string) {
    exists i, j :: FollowedLater(line, a, i, b, j)
  }

  /** `re.search(a + '.*' + re.escape(b), line)` succeeds exactly when `a` is followed later on the line by `b`. */
  lemma LaterMeaning(a: string, b: string, line: string)
    ensures Occurs(Later(a, b), line) <==> Reports(line, a, b)
  {
    if Occurs(Later(a, b), line) {
      var c :| IsPath(Later(a, b), line, c);
      LaterSplit(a, b, line, c);
    }
    if exists i, j :: FollowedLater(line, a, i, b, j) {
      var i: nat, j: nat :| FollowedLater(line, a, i, b, j);
      SplitLater(a, b, line, i, j);
    }
  }

  lemma LaterSplit(a: string, b: string, line: string, c: seq<nat>)
    requires IsPath(Later(a, b), line, c)
    ensures FollowedLater(line, a, c[0], b, c[2])
  {
    var p := Later(a, b);
    assert PieceMatches(p[0], line[c[0]..c[1]]);
    assert PieceMatches(p[1], line[c[1]..c[2]]);
    assert PieceMatches(p[2], line[c[2]..c[3]]);
    LitMatches(a, line[c[0]..c[1]]);
    LitMatches(b, line[c[2]..c[3]]);
    assert c[0] <= c[1] <= c[2];
    var mid := line[c[1]..c[2]];
    forall x | c[1] <= x < c[2] ensures line[x] != '\n' {
      assert line[x] == mid[x - c[1]];
    }
  }

  lemma SplitLater(a: string, b: string, line: string, i: nat, j: nat)
    requires FollowedLater(line, a, i, b, j)
    ensures IsPath(Later(a, b), line, [i, i + |a|, j, j + |b|])
  {
    var p := Later(a, b);
    var c: seq<nat> := [i, i + |a|, j, j + |b|];
    LitMatches(a, line[c[0]..c[1]]);
    LitMatches(b, line[c[2]..c[3]]);
    assert PieceMatches(p[0], line[c[0]..c[1]]);
    assert PieceMatches(p[1], line[c[1]..c[2]]);
    assert PieceMatches(p[2], line[c[2]..c[3]]);
    assert forall k :: 0 <= k < 3 ==> PieceMatches(p[k], line[c[k]..c[k + 1]]);
  }

  /** The whole of `t` has the shape of the address pattern. */
  ghost predicate IpShaped(t: string) {
    exists b :: IsPath(IpAddress, t, b) && b[0] == 0 && b[|IpAddress|] == |t|
  }

  /** Any character separates the digit groups, so "1a2b3c4" has the address shape. */
  lemma DotsMatchAnything()
    ensures IpShaped("1a2b3c4")
  {
    var t := "1a2b3c4";
    var b: seq<nat> := [0, 1, 2, 3, 4, 5, 6, 7];
    assert PieceMatches(Octet, t[0..1]) && PieceMatches(AnyChar, t[1..2]);
    assert PieceMatches(Octet, t[2..3]) && PieceMatches(AnyChar, t[3..4]);
    assert PieceMatches(Octet, t[4..5]) && PieceMatches(AnyChar, t[5..6]);
    assert PieceMatches(Octet, t[6..7]);
    assert IsPath(IpAddress, t, b);
  }
}

=== FILE: py_dict.dfy ===
/**
 * A Python dict with string keys: the keys in insertion order, and the key-to-value map.
 * Assigning to a present key keeps its position; a new key goes to the end.
 */
module PyDict {

  datatype Dict<V> = Dict(keys: seq<string>, m: map<string, V>)

  /** Keys are distinct and are exactly the keys of the map. */
  ghost predicate Valid<V>(d: Dict<V>) {
    && (forall i, j :: 0 <= i < j < |d.keys| ==> d.keys[i] != d.keys[j])
    && (forall k :: k in d.m <==> k in d.keys)
  }

  function Empty<V>(): Dict<V> {
    Dict([], map[])
  }

  /** `d[k] = v` */
  function Put<V>(d: Dict<V>, k: string, v: V): (r: Dict<V>)
    ensures Valid(d) ==> Valid(r)
    ensures k in r.m && r.m[k] == v
    ensures forall j :: j != k ==> (j in r.m <==> j in d.m) && (j in d.m ==> r.m[j] == d.m[j])
    ensures k in d.m ==> r.keys == d.keys
    ensures k !in d.m ==> r.keys == d.keys + [k]
  {
    if k in d.m then Dict(d.keys, d.m[k := v]) else Dict(d.keys + [k], d.m[k := v])
  }

  /** `d.get(k, 0)` */
  function Get(d: Dict<nat>, k: string): nat {
    if k in d.m then d.m[k] else 0
  }

  /** `if k not in d: d[k] = n` / `else: d[k] += n`. */
  function Add(d: Dict<nat>, k: string, n: nat): (r: Dict<nat>)
    ensures Valid(d) ==> Valid(r)
    ensures Get(r, k) == Get(d, k) + n && k in r.m
    ensures forall j :: j != k ==> Get(r, j) == Get(d, j) && (j in r.m <==> j in d.m)
    ensures k in d.m ==> r.keys == d.keys
    ensures k !in d.m ==> r.keys == d.keys + [k]
  {
    if k !in d.m then Put(d, k, n) else Put(d, k, d.m[k] + n)
  }

  /** The counting idiom `if k not in d: d[k] = 1` / `else: d[k] += 1`. */
  function Incr(d: Dict<nat>, k: string): (r: Dict<nat>)
    ensures Valid(d) ==> Valid(r)
    ensures Get(r, k) == Get(d, k) + 1 && k in r.m
    ensures forall j :: j != k ==> Get(r, j) == Get(d, j) && (j in r.m <==> j in d.m)
    ensures k in d.m ==> r.keys == d.keys
    ensures k !in d.m ==> r.keys == d.keys + [k]
  {
    Add(d, k, 1)
  }

  /** `sum(m[k] for k in ks)` */
  function SumOver(ks: seq<string>, m: map<string, nat>): nat
    requires forall k :: k in ks ==> k in m
  {
    if ks == [] then 0 else SumOver(ks[..|ks| - 1], m) + m[ks[|ks| - 1]]
  }

  /** `sum(d.values())` */
  function Total(d: Dict<nat>): nat
    requires Valid(d)
  {
    SumOver(d.keys, d.m)
  }

  lemma {:induction false} SumOverUpdate(ks: seq<string>, m: map<string, nat>, k: string, v: nat)
    requires forall j :: j in ks ==> j in m
    requires forall i, j :: 0 <= i < j < |ks| ==> ks[i] != ks[j]
    ensures k !in ks ==> SumOver(ks, m[k := v]) == SumOver(ks, m)
    ensures k in ks ==> SumOver(ks, m[k := v]) + m[k] == SumOver(ks, m) + v
  {
    if ks != [] {
      var init := ks[..|ks| - 1];
      assert forall j :: j in init ==> j in ks;
      SumOverUpdate(init, m, k, v);
      if ks[|ks| - 1] == k {
        assert k !in init by {
          forall i | 0 <= i < |init| ensures init[i] != k { assert ks[i] != ks[|ks| - 1]; }
        }
      } else {
        assert k in ks ==> k in init;
      }
    }
  }

  /** Adding `n` to one entry raises the sum of the values by exactly `n`. */
  lemma TotalAdd(d: Dict<nat>, k: string, n: nat)
    ensures Valid(d) ==> Total(Add(d, k, n)) == Total(d) + n
  {
    var r := Add(d, k, n);
    if !Valid(d) {
    } else if k in d.m {
      SumOverUpdate(d.keys, d.m, k, d.m[k] + n);
    } else {
      SumOverUpdate(d.keys, d.m, k, n);
      assert r.keys[..|r.keys| - 1] == d.keys;
    }
  }
}

=== FILE: py_regex.dfy ===
/**
 * The fragment of Python's `re` module that the log analyser uses.
 *
 * A pattern is a sequence of pieces; each piece is a fixed run of single-character
 * atoms, a greedy optional run `(?:...)?`, or a repeat `k{min,max}`, `k*`, `k*?` of one
 * character class. Matching is Python's backtracking search: the candidate end
 * positions of a piece are tried in priority order (most repetitions first for a
 * greedy repeat, fewest first for a lazy one, the optional body before skipping it),
 * depth first, and `re.search` tries start positions from left to right.
 * The relational meaning is `IsPath`: a vector of piece boundaries such that every
 * piece matches the text between its two boundaries.
 */
module PyRegex {
  import opened Wrappers

  /** Python's `str.isspace()`, which is what `\s` matches in a `str` pattern. */
  predicate IsSpace(c: char) {
    ('\t' <= c <= '\r') || ('\U{1c}' <= c <= '\U{1f}') || c == ' ' || c == '\U{85}' || c == '\U{a0}'
    || c == '\U{1680}' || ('\U{2000}' <= c <= '\U{200a}') || c == '\U{2028}' || c == '\U{2029}'
    || c == '\U{202f}' || c == '\U{205f}' || c == '\U{3000}'
  }

  /** Single-character atoms: a literal, `\d`, `\s`, `\S` and `.` (which never matches a newline). */
  datatype CharClass = Is(c: char) | Digit | Space | NonSpace | Dot

  predicate InClass(k: CharClass, c: char) {
    match k
    case Is(x) => c == x
    case Digit => '0' <= c <= '9'
    case Space => IsSpace(c)
    case NonSpace => !IsSpace(c)
    case Dot => c != '\n'
  }

  /** The atoms of an escaped literal string. */
  function Lit(s: string): (r: seq<CharClass>)
    ensures |r| == |s| && forall i :: 0 <= i < |s| ==> r[i] == Is(s[i])
  {
    if s == [] then [] else [Is(s[0])] + Lit(s[1..])
  }

  datatype Bound = AtMost(n: nat) | NoLimit

  datatype Piece =
    | Chars(atoms: seq<CharClass>)
    | Optional(atoms: seq<CharClass>)
    | Repeat(k: CharClass, min: nat, max: Bound, lazy: bool)

  type Pattern = seq<Piece>

  predicate CharsMatch(atoms: seq<CharClass>, t: string) {
    |t| == |atoms| && forall i :: 0 <= i < |t| ==> InClass(atoms[i], t[i])
  }

  /** The text `t` is one of the strings the piece `q` denotes. */
  predicate PieceMatches(q: Piece, t: string) {
    match q
    case Chars(a) => CharsMatch(a, t)
    case Optional(a) => t == [] || CharsMatch(a, t)
    case Repeat(k, min, max, _) =>
      && min <= |t|
      && (max.AtMost? ==> |t| <= max.n)
      && forall i :: 0 <= i < |t| ==> InClass(k, t[i])
  }

  lemma {:induction false} LitMatches(s: string, t: string)
    ensures CharsMatch(Lit(s), t) <==> t == s
  {
    if CharsMatch(Lit(s), t) {
      assert forall i :: 0 <= i < |t| ==> t[i] == s[i];
    }
  }

  /** The number of characters of class `k` that a repeat can take from position `i`, at most `limit`. */
  function RunLength(k: CharClass, s: string, i: nat, limit: nat): (n: nat)
    requires i + limit <= |s|
    ensures n <= limit
    ensures forall j :: i <= j < i + n ==> InClass(k, s[j])
    ensures n < limit ==> !InClass(k, s[i + n])
    decreases limit
  {
    if limit == 0 || !InClass(k, s[i]) then 0 else 1 + RunLength(k, s, i + 1, limit - 1)
  }

  function Limit(max: Bound, room: nat): (n: nat)
    ensures n <= room && (max.AtMost? ==> n <= max.n)
    ensures max.NoLimit? || room <= max.n ==> n == room
    ensures max.AtMost? && max.n < room ==> n == max.n
  {
    match max
    case AtMost(m) => if m < room then m else room
    case NoLimit => room
  }

  function Descending(hi: nat, lo: nat): (r: seq<nat>)
    requires lo <= hi
    ensures forall e :: e in r <==> lo <= e <= hi
    decreases hi - lo
  {
    if hi == lo then [lo] else [hi] + Descending(hi - 1, lo)
  }

  function Ascending(lo: nat, hi: nat): (r: seq<nat>)
    requires lo <= hi
    ensures forall e :: e in r <==> lo <= e <= hi
    decreases hi - lo
  {
    if hi == lo then [hi] else [lo] + Ascending(lo + 1, hi)
  }

  /** The fixed run `a` matches at position `i` of `s`. */
  predicate CharsAt(a: seq<CharClass>, s: string, i: nat)
    requires i <= |s|
  {
    i + |a| <= |s| && CharsMatch(a, s[i..i + |a|])
  }

  /** The end positions of the piece `q` started at `i`, in the order Python's matcher tries them. */
  function Ends(q: Piece, s: string, i: nat): (r: seq<nat>)
    requires i <= |s|
    ensures forall e :: e in r <==> i <= e <= |s| && PieceMatches(q, s[i..e])
  {
    match q
    case Chars(a) =>
      if CharsAt(a, s, i) then [i + |a|] else []
    case Optional(a) =>
      (if CharsAt(a, s, i) then [i + |a|] else []) + [i]
    case Repeat(k, min, max, lazy) =>
      var n := RunLength(k, s, i, Limit(max, |s| - i));
      RepeatEndsExact(k, min, max, s, i, n);
      if n < min then []
      else if lazy then Ascending(i + min, i + n)
      else Descending(i + n, i + min)
  }

  lemma RepeatEndsExact(k: CharClass, min: nat, max: Bound, s: string, i: nat, n: nat)
    requires i <= |s| && n == RunLength(k, s, i, Limit(max, |s| - i))
    ensures forall e :: i <= e <= |s| && PieceMatches(Repeat(k, min, max, true), s[i..e])
                        <==> min <= n && i + min <= e <= i + n
  {
    var limit := Limit(max, |s| - i);
    forall e | i <= e <= |s|
      ensures PieceMatches(Repeat(k, min, max, true), s[i..e]) <==> min <= n && i + min <= e <= i + n
    {
      var t := s[i..e];
      if PieceMatches(Repeat(k, min, max, true), t) {
        assert e - i <= limit;
      }
      assert forall j :: 0 <= j < |t| ==> t[j] == s[i + j];
      if min <= n && i + min <= e <= i + n {
        assert |t| <= limit;
      }
    }
  }

  /**
   * `b` is a vector of piece boundaries under which every piece of `p` matches its part of `s`:
   * piece `k` spans `s[b[k]..b[k+1]]`.
   */
  ghost predicate IsPath(p: Pattern, s: string, b: seq<nat>) {
    && |b| == |p| + 1
    && b[|p|] <= |s|
    && (forall j, k :: 0 <= j <= k <= |p| ==> b[j] <= b[k])
    && (forall k :: 0 <= k < |p| ==> PieceMatches(p[k], s[b[k]..b[k + 1]]))
  }

  /** `b` is a match of `p` in `s`, and no match starts further left. */
  ghost predicate LeftmostMatch(p: Pattern, s: string, b: seq<nat>) {
    IsPath(p, s, b) && forall c :: IsPath(p, s, c) ==> b[0] <= c[0]
  }

  /** The pattern `p` matches somewhere in `s`. */
  ghost predicate Occurs(p: Pattern, s: string) {
    exists b :: IsPath(p, s, b)
  }

  /** The position of the first occurrence of `x` in `xs`. */
  function IndexOf(xs: seq<nat>, x: nat): (n: nat)
    requires x in xs
    ensures n < |xs| && xs[n] == x && forall m :: 0 <= m < n ==> xs[m] != x
  {
    if xs[0] == x then 0 else 1 + IndexOf(xs[1..], x)
  }

  /**
   * Python's matcher reaches the boundaries `b` no later than `c` (two vectors from the
   * same start): at the first piece where they part, `b`'s end comes earlier in that
   * piece's priority order `Ends`.
   */
  ghost predicate Preferred(p: Pattern, s: string, b: seq<nat>, c: seq<nat>)
    decreases |p|
  {
    && |b| == |p| + 1 && |c| == |p| + 1 && b[0] == c[0] && b[0] <= |s|
    && (|| p == []
        || (b[1] == c[1] && Preferred(p[1..], s, b[1..], c[1..]))
        || (&& b[1] != c[1] && b[1] in Ends(p[0], s, b[0]) && c[1] in Ends(p[0], s, b[0])
            && IndexOf(Ends(p[0], s, b[0]), b[1]) < IndexOf(Ends(p[0], s, b[0]), c[1])))
  }

  /** `b` is the match Python's backtracking returns among the matches that start at `b[0]`. */
  ghost predicate FirstAt(p: Pattern, s: string, b: seq<nat>) {
    IsPath(p, s, b) && forall c :: IsPath(p, s, c) && c[0] == b[0] ==> Preferred(p, s, b, c)
  }

  /** `b` is the match `re.search(p, s)` returns: leftmost, and first in priority order there. */
  ghost predicate PythonMatch(p: Pattern, s: string, b: seq<nat>) {
    LeftmostMatch(p, s, b) && FirstAt(p, s, b)
  }

  /** `x` is `re.search(p, s).group(0)`. */
  ghost predicate MatchText(p: Pattern, s: string, x: string) {
    exists b :: PythonMatch(p, s, b) && |b| == |p| + 1 && b[0] <= b[|p|] <= |s| && x == s[b[0]..b[|p|]]
  }

  /** Two vectors each tried no later than the other are the same. */
  lemma {:induction false} PreferredAntisymmetric(p: Pattern, s: string, b: seq<nat>, c: seq<nat>)
    requires Preferred(p, s, b, c) && Preferred(p, s, c, b)
    ensures b == c
    decreases |p|
  {
    if p != [] && b[1] == c[1] {
      PreferredAntisymmetric(p[1..], s, b[1..], c[1..]);
      assert b == [b[0]] + b[1..] && c == [c[0]] + c[1..];
    }
  }

  /** There is only one match `re.search` can return, so its text is determined. */
  lemma MatchTextUnique(p: Pattern, s: string, x: string, y: string)
    requires MatchText(p, s, x) && MatchText(p, s, y)
    ensures x == y
  {
    var b :| PythonMatch(p, s, b) && |b| == |p| + 1 && b[0] <= b[|p|] <= |s| && x == s[b[0]..b[|p|]];
    var c :| PythonMatch(p, s, c) && |c| == |p| + 1 && c[0] <= c[|p|] <= |s| && y == s[c[0]..c[|p|]];
    assert b[0] == c[0];
    PreferredAntisymmetric(p, s, b, c);
  }

  lemma ConsPath(p: Pattern, s: string, i: nat, b: seq<nat>)
    requires p != [] && IsPath(p[1..], s, b) && i <= b[0]
    requires PieceMatches(p[0], s[i..b[0]])
    ensures IsPath(p, s, [i] + b)
  {
    var c := [i] + b;
    forall j, k | 0 <= j <= k <= |p| ensures c[j] <= c[k] {
      if 0 < j {
        assert c[j] == b[j - 1] && c[k] == b[k - 1];
      } else {
        if 0 < k { assert c[k] == b[k - 1]; }
      }
    }
    forall k | 0 < k < |p| ensures PieceMatches(p[k], s[c[k]..c[k + 1]]) {
      assert p[k] == p[1..][k - 1];
      assert c[k] == b[k - 1] && c[k + 1] == b[k];
    }
  }

  lemma TailPath(p: Pattern, s: string, b: seq<nat>)
    requires p != [] && IsPath(p, s, b)
    ensures IsPath(p[1..], s, b[1..])
  {
    var c := b[1..];
    forall k | 0 <= k < |p| - 1 ensures PieceMatches(p[1..][k], s[c[k]..c[k + 1]]) {
      assert p[1..][k] == p[k + 1];
    }
  }

  /** The first match of `p` that starts at `i`, as Python's depth-first backtracking finds it. */
  function FirstPath(p: Pattern, s: string, i: nat): (r: Option<seq<nat>>)
    requires i <= |s|
    ensures r.Some? ==> IsPath(p, s, r.value) && r.value[0] == i
    decreases |p|, 0
  {
    if p == [] then Some([i]) else TryEnds(p, s, i, Ends(p[0], s, i))
  }

  /** Tries the candidate ends of the first piece in order, continuing with the rest of the pattern. */
  function TryEnds(p: Pattern, s: string, i: nat, ends: seq<nat>): (r: Option<seq<nat>>)
    requires p != [] && i <= |s|
    requires forall e :: e in ends ==> i <= e <= |s| && PieceMatches(p[0], s[i..e])
    ensures r.Some? ==> IsPath(p, s, r.value) && r.value[0] == i
    decreases |p| - 1, |ends|
  {
    if ends == [] then None
    else
      assert ends[0] in ends;
      assert forall e :: e in ends[1..] ==> e in ends;
      match FirstPath(p[1..], s, ends[0])
      case Some(b) => ConsPath(p, s, i, b); Some([i] + b)
      case None => TryEnds(p, s, i, ends[1..])
  }

  lemma {:induction false} TryEndsFinds(p: Pattern, s: string, i: nat, ends: seq<nat>, e: nat)
    requires p != [] && i <= |s|
    requires forall e :: e in ends ==> i <= e <= |s| && PieceMatches(p[0], s[i..e])
    requires e in ends && e <= |s| && FirstPath(p[1..], s, e).Some?
    ensures TryEnds(p, s, i, ends).Some?
    decreases |ends|
  {
    assert ends[0] in ends;
    if ends[0] != e && FirstPath(p[1..], s, ends[0]).None? {
      assert forall e :: e in ends[1..] ==> e in ends;
      TryEndsFinds(p, s, i, ends[1..], e);
    }
  }

  /** Backtracking misses no match: whenever some match starts at `b[0]`, one is found there. */
  lemma {:induction false} FirstPathComplete(p: Pattern, s: string, b: seq<nat>)
    requires IsPath(p, s, b)
    ensures FirstPath(p, s, b[0]).Some?
    decreases |p|
  {
    if p != [] {
      TailPath(p, s, b);
      FirstPathComplete(p[1..], s, b[1..]);
      assert b[0] <= b[1];
      TryEndsFinds(p, s, b[0], Ends(p[0], s, b[0]), b[1]);
    }
  }

  /** Where backtracking finds nothing, nothing matches. */
  lemma NoneMeansNoPath(p: Pattern, s: string, i: nat)
    requires i <= |s| && FirstPath(p, s, i).None?
    ensures forall c :: IsPath(p, s, c) ==> c[0] != i
  {
    forall c | IsPath(p, s, c) ensures c[0] != i {
      FirstPathComplete(p, s, c);
    }
  }

  /**
   * The match `TryEnds` returns takes an end of the first piece no later in `ends` than the end
   * any other match takes, and on the same end it continues with the first match of the rest.
   */
  lemma {:induction false} TryEndsFirst(p: Pattern, s: string, i: nat, ends: seq<nat>, c: seq<nat>)
    requires p != [] && i <= |s|
    requires forall e :: e in ends ==> i <= e <= |s| && PieceMatches(p[0], s[i..e])
    requires TryEnds(p, s, i, ends).Some?
    requires IsPath(p, s, c) && c[0] == i && c[1] in ends
    ensures TryEnds(p, s, i, ends).value[1] in ends
    ensures TryEnds(p, s, i, ends).value[1] == c[1] ==>
      FirstPath(p[1..], s, c[1]) == Some(TryEnds(p, s, i, ends).value[1..])
    ensures TryEnds(p, s, i, ends).value[1] != c[1] ==>
      IndexOf(ends, TryEnds(p, s, i, ends).value[1]) < IndexOf(ends, c[1])
    decreases |ends|
  {
    assert ends[0] in ends;
    assert forall e :: e in ends[1..] ==> e in ends;
    var b := TryEnds(p, s, i, ends).value;
    if FirstPath(p[1..], s, ends[0]).None? {
      TailPath(p, s, c);
      NoneMeansNoPath(p[1..], s, ends[0]);
      assert c[1] != ends[0];
      assert c[1] in ends[1..];
      TryEndsFirst(p, s, i, ends[1..], c);
      assert IsPath(p, s, b);
      TailPath(p, s, b);
      assert b[1] != ends[0];
    }
  }

  /** The match backtracking finds at `i` is tried no later than any other match starting at `i`. */
  lemma {:induction false} FirstPathFirst(p: Pattern, s: string, i: nat, c: seq<nat>)
    requires i <= |s| && FirstPath(p, s, i).Some? && IsPath(p, s, c) && c[0] == i
    ensures Preferred(p, s, FirstPath(p, s, i).value, c)
    decreases |p|
  {
    if p != [] {
      var b := FirstPath(p, s, i).value;
      var ends := Ends(p[0], s, i);
      assert c[0] <= c[1] <= |s| && PieceMatches(p[0], s[c[0]..c[1]]);
      TryEndsFirst(p, s, i, ends, c);
      if b[1] == c[1] {
        TailPath(p, s, c);
        FirstPathFirst(p[1..], s, c[1], c[1..]);
      }
    }
  }

  lemma FirstPathPreferred(p: Pattern, s: string, i: nat)
    requires i <= |s| && FirstPath(p, s, i).Some?
    ensures FirstAt(p, s, FirstPath(p, s, i).value)
  {
    forall c | IsPath(p, s, c) && c[0] == i ensures Preferred(p, s, FirstPath(p, s, i).value, c) {
      FirstPathFirst(p, s, i, c);
    }
  }

  /** `re.search` from position `i` on: the first start, left to right, at which `p` matches. */
  function SearchFrom(p: Pattern, s: string, i: nat): (r: Option<seq<nat>>)
    requires i <= |s|
    ensures r.Some? ==> IsPath(p, s, r.value) && i <= r.value[0]
    ensures r.Some? ==> r.value[0] <= |s| && FirstPath(p, s, r.value[0]) == r
    decreases |s| - i
  {
    match FirstPath(p, s, i)
    case Some(b) => Some(b)
    case None => if i == |s| then None else SearchFrom(p, s, i + 1)
  }

  /**
   * `re.search(p, s)`: the boundaries of the match, or None. It finds a match exactly when
   * the pattern occurs, and the match it finds starts no later than any other.
   */
  function Search(p: Pattern, s: string): (r: Option<seq<nat>>)
    ensures r.Some? <==> Occurs(p, s)
    ensures r.Some? ==> PythonMatch(p, s, r.value)
  {
    SearchFromStart(p, s);
    match SearchFrom(p, s, 0)
    case None => None
    case Some(b) => FirstPathPreferred(p, s, b[0]); Some(b)
  }

  lemma {:induction false} SearchFromFinds(p: Pattern, s: string, i: nat, b: seq<nat>)
    requires i <= |s| && IsPath(p, s, b) && i <= b[0]
    ensures SearchFrom(p, s, i).Some? && SearchFrom(p, s, i).value[0] <= b[0]
    decreases |s| - i
  {
    if FirstPath(p, s, i).None? {
      if i == b[0] {
        FirstPathComplete(p, s, b);
      } else {
        SearchFromFinds(p, s, i + 1, b);
      }
    }
  }

  /** Searching from the start misses no match and finds the leftmost one. */
  lemma SearchFromStart(p: Pattern, s: string)
    ensures forall b :: IsPath(p, s, b) ==> SearchFrom(p, s, 0).Some? && SearchFrom(p, s, 0).value[0] <= b[0]
  {
    forall b | IsPath(p, s, b) ensures SearchFrom(p, s, 0).Some? && SearchFrom(p, s, 0).value[0] <= b[0] {
      SearchFromFinds(p, s, 0, b);
    }
  }

  /** `match.group(0)`: the text the whole match spans. */
  function Group0(p: Pattern, s: string, b: seq<nat>): string
    requires IsPath(p, s, b)
  {
    s[b[0]..b[|p|]]
  }

  /** The text spanned by piece `k` of a match, a capture group around that piece. */
  function Group(p: Pattern, s: string, b: seq<nat>, k: nat): string
    requires IsPath(p, s, b) && k < |p|
  {
    s[b[k]..b[k + 1]]
  }

  lemma {:induction false} IndexDescending(hi: nat, lo: nat, e: nat)
    requires lo <= e <= hi
    ensures IndexOf(Descending(hi, lo), e) == hi - e
    decreases hi - lo
  {
    if hi != e {
      IndexDescending(hi - 1, lo, e);
    }
  }

  lemma {:induction false} IndexAscending(lo: nat, hi: nat, e: nat)
    requires lo <= e <= hi
    ensures IndexOf(Ascending(lo, hi), e) == e - lo
    decreases hi - lo
  {
    if lo != e {
      IndexAscending(lo + 1, hi, e);
    }
  }

  /** A fixed run has at most one end, so two vectors tried in order agree on it. */
  lemma PreferredChars(p: Pattern, s: string, b: seq<nat>, c: seq<nat>)
    requires Preferred(p, s, b, c) && p != [] && p[0].Chars?
    ensures b[1] == c[1] && Preferred(p[1..], s, b[1..], c[1..])
  {
  }

  /** A greedy optional run is tried before it is skipped. */
  lemma PreferredOptional(p: Pattern, s: string, b: seq<nat>, c: seq<nat>)
    requires Preferred(p, s, b, c) && p != [] && p[0].Optional?
    ensures c[1] <= b[1]
    ensures b[1] == c[1] ==> Preferred(p[1..], s, b[1..], c[1..])
  {
  }

  /** A greedy repeat tries more repetitions first. */
  lemma PreferredGreedy(p: Pattern, s: string, b: seq<nat>, c: seq<nat>)
    requires Preferred(p, s, b, c) && p != [] && p[0].Repeat? && !p[0].lazy
    ensures c[1] <= b[1]
    ensures b[1] == c[1] ==> Preferred(p[1..], s, b[1..], c[1..])
  {
    if b[1] != c[1] {
      var q := p[0];
      var e := Ends(q, s, b[0]);
      assert b[1] in e && c[1] in e && IndexOf(e, b[1]) < IndexOf(e, c[1]);
      var n := RunLength(q.k, s, b[0], Limit(q.max, |s| - b[0]));
      var hi, lo := b[0] + n, b[0] + q.min;
      assert e == Descending(hi, lo);
      IndexDescending(hi, lo, b[1]);
      IndexDescending(hi, lo, c[1]);
      assert hi - b[1] < hi - c[1];
    }
  }

  /** A lazy repeat tries fewer repetitions first. */
  lemma PreferredLazy(p: Pattern, s: string, b: seq<nat>, c: seq<nat>)
    requires Preferred(p, s, b, c) && p != [] && p[0].Repeat? && p[0].lazy
    ensures b[1] <= c[1]
    ensures b[1] == c[1] ==> Preferred(p[1..], s, b[1..], c[1..])
  {
    if b[1] != c[1] {
      var q := p[0];
      var e := Ends(q, s, b[0]);
      assert b[1] in e && c[1] in e && IndexOf(e, b[1]) < IndexOf(e, c[1]);
      var n := RunLength(q.k, s, b[0], Limit(q.max, |s| - b[0]));
      var lo, hi := b[0] + q.min, b[0] + n;
      assert e == Ascending(lo, hi);
      IndexAscending(lo, hi, b[1]);
      IndexAscending(lo, hi, c[1]);
      assert b[1] - lo < c[1] - lo;
    }
  }

  /** At every piece, `c` takes the end Python's matcher tries first. */
  ghost predicate TopPriority(p: Pattern, s: string, c: seq<nat>) {
    && |c| == |p| + 1 && c[|p|] <= |s|
    && forall k :: 0 <= k < |p| ==> c[k] <= |s| && Ends(p[k], s, c[k]) != [] && c[k + 1] == Ends(p[k], s, c[k])[0]
  }

  /** A vector of top-priority ends is a match. */
  lemma {:induction false} TopPriorityPath(p: Pattern, s: string, c: seq<nat>)
    requires TopPriority(p, s, c)
    ensures IsPath(p, s, c)
    decreases |p|
  {
    if p == [] {
    } else {
      assert c[1] in Ends(p[0], s, c[0]);
      forall k | 0 <= k < |p| - 1
        ensures c[1..][k] <= |s| && Ends(p[1..][k], s, c[1..][k]) != [] && c[1..][k + 1] == Ends(p[1..][k], s, c[1..][k])[0]
      {
        assert p[1..][k] == p[k + 1];
      }
      TopPriorityPath(p[1..], s, c[1..]);
      ConsPath(p, s, c[0], c[1..]);
      assert [c[0]] + c[1..] == c;
    }
  }

  /** A vector that takes the top-priority end at every piece is tried before any other. */
  lemma {:induction false} TopPriorityFirst(p: Pattern, s: string, b: seq<nat>, c: seq<nat>)
    requires Preferred(p, s, b, c) && TopPriority(p, s, c)
    ensures b == c
    decreases |p|
  {
    if p != [] {
      var e := Ends(p[0], s, c[0]);
      assert c[1] == e[0];
      assert b[1] == c[1];
      forall k | 0 <= k < |p| - 1
        ensures c[1..][k] <= |s| && Ends(p[1..][k], s, c[1..][k]) != [] && c[1..][k + 1] == Ends(p[1..][k], s, c[1..][k])[0]
      {
        assert p[1..][k] == p[k + 1];
      }
      TopPriorityFirst(p[1..], s, b[1..], c[1..]);
      assert b == [b[0]] + b[1..] && c == [c[0]] + c[1..];
    }
  }

  /** The text of the match `re.search` returns is `MatchText`. */
  lemma SearchText(p: Pattern, s: string)
    requires Search(p, s).Some?
    ensures MatchText(p, s, Group0(p, s, Search(p, s).value))
  {
    var b := Search(p, s).value;
    assert PythonMatch(p, s, b) && |b| == |p| + 1 && b[0] <= b[|p|] <= |s|;
  }

  /** `x` is `re.match(p, s).group(0)`: the text of the first match, in priority order, at position 0. */
  ghost predicate StartText(p: Pattern, s: string, x: string) {
    exists b :: FirstAt(p, s, b) && |b| == |p| + 1 && b[0] == 0 && b[|p|] <= |s| && x == s[..b[|p|]]
  }

  lemma MatchStartText(p: Pattern, s: string)
    requires FirstPath(p, s, 0).Some?
    ensures StartText(p, s, Group0(p, s, FirstPath(p, s, 0).value))
  {
    var b := FirstPath(p, s, 0).value;
    FirstPathPreferred(p, s, 0);
    assert s[b[0]..b[|p|]] == s[..b[|p|]];
  }

  /** A match of the tail `q` of a pattern `p + q` is a match of `q` by itself. */
  lemma {:induction false} SuffixPath(p: Pattern, q: Pattern, s: string, b: seq<nat>)
    requires IsPath(p + q, s, b)
    ensures IsPath(q, s, b[|p|..])
  {
    var c := b[|p|..];
    forall k | 0 <= k < |q| ensures PieceMatches(q[k], s[c[k]..c[k + 1]]) {
      assert (p + q)[|p| + k] == q[k];
    }
  }

  /** A match inside the window `s[lo..hi]` is a match of that window, shifted by `lo`. */
  lemma {:induction false} WindowPath(p: Pattern, s: string, b: seq<nat>, lo: nat, hi: nat)
    requires IsPath(p, s, b) && lo <= b[0] && b[|p|] <= hi <= |s|
    ensures IsPath(p, s[lo..hi], Shift(b, lo))
  {
    var w := s[lo..hi];
    var c := Shift(b, lo);
    forall k | 0 <= k < |p| ensures PieceMatches(p[k], w[c[k]..c[k + 1]]) {
      assert b[0] <= b[k] <= b[k + 1] <= b[|p|];
      SliceOfWindow(s, lo, hi, b[k], b[k + 1]);
    }
  }

  lemma SliceOfWindow(s: string, lo: nat, hi: nat, i: nat, j: nat)
    requires lo <= i <= j <= hi <= |s|
    ensures s[lo..hi][i - lo..j - lo] == s[i..j]
  {
    var x, y := s[lo..hi][i - lo..j - lo], s[i..j];
    forall n | 0 <= n < |y| ensures x[n] == y[n] {
    }
  }

  function Shift(b: seq<nat>, lo: nat): (c: seq<nat>)
    requires forall k :: 0 <= k < |b| ==> lo <= b[k]
    ensures |c| == |b| && forall k :: 0 <= k < |b| ==> c[k] == b[k] - lo
  {
    if b == [] then [] else [b[0] - lo] + Shift(b[1..], lo)
  }
}

=== FILE: tally.dfy ===
/**
 * The run's frequency tables as one value, and the effect of each step of the analysis on
 * them: `fill_ipcountry_data`, `fill_usr_data`, one turn of the main loop, the whole loop,
 * and `fill_country_data`. The aggregator class is specified by these functions.
 */
module Tally {
  import opened Wrappers
  import opened PyDict
  import opened PyRegex
  import opened LogPatterns
  import opened DialectDetector
  import opened LineClassifier

  /** The dictionaries of `main`, and the addresses sent to the geolocation service, in order. */
  datatype Tables = Tables(
    ipCount: Dict<nat>, ipSuccess: Dict<nat>, ipFailed: Dict<nat>, ipLockout: Dict<nat>,
    userCount: Dict<nat>, userSuccess: Dict<nat>, userFailed: Dict<nat>,
    ipCountry: Dict<string>, countryCount: Dict<nat>,
    queries: seq<string>)

  function NoTables(): Tables {
    Tables(Empty(), Empty(), Empty(), Empty(), Empty(), Empty(), Empty(), Empty(), Empty(), [])
  }

  ghost predicate AllValid(t: Tables) {
    && Valid(t.ipCount) && Valid(t.ipSuccess) && Valid(t.ipFailed) && Valid(t.ipLockout)
    && Valid(t.userCount) && Valid(t.userSuccess) && Valid(t.userFailed)
    && Valid(t.ipCountry) && Valid(t.countryCount)
  }

  /** Every user occurrence is either a failure or a success. */
  ghost predicate Balanced(t: Tables) {
    forall u :: Get(t.userCount, u) == Get(t.userFailed, u) + Get(t.userSuccess, u)
  }

  /**
   * What the loop keeps: the country table has the same keys, in the same order, as the
   * address counts; the service was asked once about each counted address, in first-seen
   * order; every counted address has a positive count; users are balanced.
   */
  ghost predicate Inv(t: Tables) {
    && AllValid(t)
    && t.ipCountry.keys == t.ipCount.keys
    && t.queries == t.ipCount.keys
    && (forall ip :: ip in t.ipCount.m ==> t.ipCount.m[ip] > 0)
    && Balanced(t)
  }

  lemma NoTablesInv()
    ensures Inv(NoTables())
  {
  }

  /**
   * `fill_ipcountry_data`: count the address; ask the service about it only the first time.
   */
  function FillIpCountry(t: Tables, ip: string, resolve: string -> string): (r: Tables)
    ensures Get(r.ipCount, ip) == Get(t.ipCount, ip) + 1
    ensures forall j :: j != ip ==> Get(r.ipCount, j) == Get(t.ipCount, j)
    ensures ip in t.ipCountry.m ==> r.ipCountry == t.ipCountry && r.queries == t.queries
    ensures ip !in t.ipCountry.m ==>
      r.ipCountry.m == t.ipCountry.m[ip := resolve(ip)] && r.queries == t.queries + [ip]
    ensures r.(ipCount := t.ipCount, ipCountry := t.ipCountry, queries := t.queries) == t
  {
    var counted := t.(ipCount := Incr(t.ipCount, ip));
    if ip !in t.ipCountry.m then
      counted.(ipCountry := Put(t.ipCountry, ip, resolve(ip)), queries := t.queries + [ip])
    else counted
  }

  /** The user name of a failed login on `line` from `ip`, if the source finds one. */
  function FailedUserOf(line: string, ip: string): (r: Option<string>)
    ensures r.Some? <==> OutcomeSpan(FailedMark, line, ip).Some? && Occurs(FailedUserPattern, OutcomeSpan(FailedMark, line, ip).value)
    ensures r.Some? ==> FailedName(OutcomeSpan(FailedMark, line, ip).value, r.value)
  {
    match OutcomeSpan(FailedMark, line, ip)
    case None => None
    case Some(span) => FailedUser(span)
  }

  /** The user name of an accepted login on `line` from `ip`, if the source finds one. */
  function AcceptedUserOf(line: string, ip: string): (r: Option<string>)
    ensures r.Some? <==> OutcomeSpan(AcceptedMark, line, ip).Some? && Occurs(AcceptedUserPattern, OutcomeSpan(AcceptedMark, line, ip).value)
    ensures r.Some? ==> AcceptedName(OutcomeSpan(AcceptedMark, line, ip).value, r.value)
  {
    match OutcomeSpan(AcceptedMark, line, ip)
    case None => None
    case Some(span) => AcceptedUser(span)
  }

  /** Counting an optional key: a present key is counted once, an absent one changes nothing. */
  function Tick(d: Dict<nat>, k: Option<string>): (r: Dict<nat>)
    ensures forall j :: Get(r, j) == Get(d, j) + Bit(k == Some(j))
    ensures Valid(d) ==> Valid(r)
    ensures k.None? ==> r == d
  {
    match k
    case None => d
    case Some(x) => Incr(d, x)
  }

  function Bit(b: bool): nat {
    if b then 1 else 0
  }

  /**
   * The first half of `fill_usr_data`: on a `Failed password ... <ip>` line the address's
   * failure tally moves, and the user's failure tally and count move when a name is found.
   */
  function CountFailed(t: Tables, line: string, ip: string): (r: Tables)
    ensures Get(r.ipFailed, ip) == Get(t.ipFailed, ip) + Bit(OutcomeSpan(FailedMark, line, ip).Some?)
    ensures forall j :: j != ip ==> Get(r.ipFailed, j) == Get(t.ipFailed, j)
    ensures forall u :: Get(r.userFailed, u) == Get(t.userFailed, u) + Bit(FailedUserOf(line, ip) == Some(u))
    ensures forall u :: Get(r.userCount, u) == Get(t.userCount, u) + Bit(FailedUserOf(line, ip) == Some(u))
    ensures r.ipCount == t.ipCount && r.ipSuccess == t.ipSuccess && r.ipLockout == t.ipLockout
    ensures r.userSuccess == t.userSuccess && r.ipCountry == t.ipCountry
    ensures r.countryCount == t.countryCount && r.queries == t.queries
    ensures AllValid(t) ==> AllValid(r)
  {
    if OutcomeSpan(FailedMark, line, ip).None? then t
    else
      var user := FailedUserOf(line, ip);
      t.(ipFailed := Incr(t.ipFailed, ip), userCount := Tick(t.userCount, user), userFailed := Tick(t.userFailed, user))
  }

  /**
   * The second half of `fill_usr_data`: on an `Accepted ... <ip>` line the address's
   * success tally moves, and the user's success tally and count move when a name is found.
   */
  function CountAccepted(t: Tables, line: string, ip: string): (r: Tables)
    ensures Get(r.ipSuccess, ip) == Get(t.ipSuccess, ip) + Bit(OutcomeSpan(AcceptedMark, line, ip).Some?)
    ensures forall j :: j != ip ==> Get(r.ipSuccess, j) == Get(t.ipSuccess, j)
    ensures forall u :: Get(r.userSuccess, u) == Get(t.userSuccess, u) + Bit(AcceptedUserOf(line, ip) == Some(u))
    ensures forall u :: Get(r.userCount, u) == Get(t.userCount, u) + Bit(AcceptedUserOf(line, ip) == Some(u))
    ensures r.ipCount == t.ipCount && r.ipFailed == t.ipFailed && r.ipLockout == t.ipLockout
    ensures r.userFailed == t.userFailed && r.ipCountry == t.ipCountry
    ensures r.countryCount == t.countryCount && r.queries == t.queries
    ensures AllValid(t) ==> AllValid(r)
  {
    if OutcomeSpan(AcceptedMark, line, ip).None? then t
    else
      var user := AcceptedUserOf(line, ip);
      t.(ipSuccess := Incr(t.ipSuccess, ip), userCount := Tick(t.userCount, user), userSuccess := Tick(t.userSuccess, user))
  }

  /**
   * `fill_usr_data`: both outcome tests run. It touches only the outcome and user tallies,
   * and each user tally moves together with the user count, so users stay balanced.
   */
  function FillUsr(t: Tables, line: string, ip: string): (r: Tables)
    ensures r.ipCount == t.ipCount && r.ipLockout == t.ipLockout && r.ipCountry == t.ipCountry
    ensures r.countryCount == t.countryCount && r.queries == t.queries
    ensures AllValid(t) ==> AllValid(r)
    ensures Balanced(t) ==> Balanced(r)
  {
    var f := CountFailed(t, line, ip);
    var r := CountAccepted(f, line, ip);
    assert Balanced(t) ==> Balanced(r) by {
      if Balanced(t) {
        forall u ensures Get(r.userCount, u) == Get(r.userFailed, u) + Get(r.userSuccess, u) {
          assert Get(f.userCount, u) == Get(f.userFailed, u) + Get(f.userSuccess, u);
        }
      }
    }
    r
  }

  /**
   * What the failure test of `fill_usr_data` does to the tables `t`, giving `r`: the address's
   * failure tally moves whenever `Failed password` is followed by the address, even without a
   * user name, and the user's failure tally moves when a name is found.
   */
  ghost predicate FailedTallied(t: Tables, r: Tables, line: string, ip: string) {
    && Get(r.ipFailed, ip) == Get(t.ipFailed, ip) + Bit(Reports(line, FailedMark, ip))
    && (forall j :: j != ip ==> Get(r.ipFailed, j) == Get(t.ipFailed, j))
    && (forall u :: Get(r.userFailed, u) == Get(t.userFailed, u) + Bit(FailedUserOf(line, ip) == Some(u)))
  }

  /** The same for the success test and `Accepted`. */
  ghost predicate AcceptedTallied(t: Tables, r: Tables, line: string, ip: string) {
    && Get(r.ipSuccess, ip) == Get(t.ipSuccess, ip) + Bit(Reports(line, AcceptedMark, ip))
    && (forall j :: j != ip ==> Get(r.ipSuccess, j) == Get(t.ipSuccess, j))
    && (forall u :: Get(r.userSuccess, u) == Get(t.userSuccess, u) + Bit(AcceptedUserOf(line, ip) == Some(u)))
  }

  /**
   * What `fill_usr_data` does to the tables `t`, giving `r`: both tests tally, and a line with
   * no user name leaves the user counts as they were.
   */
  ghost predicate UsersTallied(t: Tables, r: Tables, line: string, ip: string) {
    && FailedTallied(t, r, line, ip)
    && AcceptedTallied(t, r, line, ip)
    && (FailedUserOf(line, ip).None? && AcceptedUserOf(line, ip).None? ==> r.userCount == t.userCount)
  }

  lemma CountFailedTallies(t: Tables, line: string, ip: string)
    ensures FailedTallied(t, CountFailed(t, line, ip), line, ip)
  {
  }

  lemma CountAcceptedTallies(t: Tables, line: string, ip: string)
    ensures AcceptedTallied(t, CountAccepted(t, line, ip), line, ip)
  {
  }

  lemma FillUsrTallies(t: Tables, line: string, ip: string)
    ensures UsersTallied(t, FillUsr(t, line, ip), line, ip)
  {
    var f := CountFailed(t, line, ip);
    var r := CountAccepted(f, line, ip);
    assert FillUsr(t, line, ip) == r;
    CountFailedTallies(t, line, ip);
    CountAcceptedTallies(f, line, ip);
    TalliedAlike(t, f, t, r, line, ip);
    TalliedAlike(f, r, t, r, line, ip);
    if FailedUserOf(line, ip).None? && AcceptedUserOf(line, ip).None? {
      assert f.userCount == t.userCount;
    }
  }

  /** Each half of the tally reads only its own tables. */
  lemma TalliedAlike(t: Tables, r: Tables, t': Tables, r': Tables, line: string, ip: string)
    ensures (&& FailedTallied(t, r, line, ip)
             && t'.ipFailed == t.ipFailed && t'.userFailed == t.userFailed
             && r'.ipFailed == r.ipFailed && r'.userFailed == r.userFailed)
            ==> FailedTallied(t', r', line, ip)
    ensures (&& AcceptedTallied(t, r, line, ip)
             && t'.ipSuccess == t.ipSuccess && t'.userSuccess == t.userSuccess
             && r'.ipSuccess == r.ipSuccess && r'.userSuccess == r.userSuccess)
            ==> AcceptedTallied(t', r', line, ip)
  {
  }

  /** `UsersTallied` reads only the outcome and user tallies of its two tables. */
  lemma UsersTalliedAlike(t: Tables, r: Tables, t': Tables, r': Tables, line: string, ip: string)
    requires UsersTallied(t, r, line, ip)
    requires t'.ipFailed == t.ipFailed && t'.ipSuccess == t.ipSuccess && t'.userCount == t.userCount
    requires t'.userFailed == t.userFailed && t'.userSuccess == t.userSuccess
    requires r'.ipFailed == r.ipFailed && r'.ipSuccess == r.ipSuccess && r'.userCount == r.userCount
    requires r'.userFailed == r.userFailed && r'.userSuccess == r.userSuccess
    ensures UsersTallied(t', r', line, ip)
  {
  }

  /** The `if match:` branch of the main loop (lines of the relevant kind only). */
  function Classify(t: Tables, d: Dialect, line: string, resolve: string -> string): (r: Tables)
    ensures forall ip :: Get(r.ipCount, ip) == Get(t.ipCount, ip) + Bit(RelevantIp(d, line) == Some(ip))
    ensures Valid(t.ipCount) ==> Valid(r.ipCount)
    ensures r.ipLockout == t.ipLockout
    ensures d != Ssh ==> r.ipFailed == t.ipFailed && r.ipSuccess == t.ipSuccess && r.userCount == t.userCount
    ensures d != Ssh ==> r.userFailed == t.userFailed && r.userSuccess == t.userSuccess
    ensures RelevantIp(d, line).None? ==> r == t
    ensures forall ip :: d == Ssh && RelevantIp(d, line) == Some(ip) ==> UsersTallied(t, r, line, ip)
  {
    match RelevantIp(d, line)
    case None => t
    case Some(ip) => ClassifyFound(t, d, line, ip, resolve)
  }

  /** A line of the relevant kind adds one to the sum of the address counts. */
  lemma ClassifyTotal(t: Tables, d: Dialect, line: string, resolve: string -> string)
    requires Valid(t.ipCount)
    ensures Total(Classify(t, d, line, resolve).ipCount) == Total(t.ipCount) + Bit(RelevantIp(d, line).Some?)
  {
    match RelevantIp(d, line)
    case None =>
    case Some(ip) =>
      var filled := FillIpCountry(t, ip, resolve);
      assert filled.ipCount == Incr(t.ipCount, ip);
      assert Classify(t, d, line, resolve).ipCount == filled.ipCount;
      TotalAdd(t.ipCount, ip, 1);
  }

  /** A line counted under `ip`: the address is counted, then an SSH line's outcome is tallied. */
  function ClassifyFound(t: Tables, d: Dialect, line: string, ip: string, resolve: string -> string): (r: Tables)
    ensures r.ipCount == Incr(t.ipCount, ip) && r.ipLockout == t.ipLockout
    ensures d != Ssh ==> r == FillIpCountry(t, ip, resolve)
    ensures d == Ssh ==> UsersTallied(t, r, line, ip)
  {
    var t1 := FillIpCountry(t, ip, resolve);
    if d == Ssh then
      var r := FillUsr(t1, line, ip);
      FillUsrTallies(t1, line, ip);
      UsersTalliedAlike(t1, r, t, r, line, ip);
      r
    else t1
  }

  /** The PAM report test of the main loop, run on every line of an SSH log. */
  function CountLockout(t: Tables, d: Dialect, line: string): (r: Tables)
    ensures r.(ipLockout := t.ipLockout) == t
    ensures forall ip :: Get(r.ipLockout, ip) == Get(t.ipLockout, ip) + Bit(d == Ssh && LockoutIp(line) == Some(ip))
    ensures Valid(t.ipLockout) ==> Valid(r.ipLockout)
  {
    if d != Ssh then t
    else t.(ipLockout := Tick(t.ipLockout, LockoutIp(line)))
  }

  /** One turn of the main loop. */
  function Step(t: Tables, d: Dialect, line: string, resolve: string -> string): (r: Tables)
    ensures forall ip :: Get(r.ipCount, ip) == Get(t.ipCount, ip) + Bit(RelevantIp(d, line) == Some(ip))
    ensures forall ip :: Get(r.ipLockout, ip) == Get(t.ipLockout, ip) + Bit(d == Ssh && LockoutIp(line) == Some(ip))
    ensures d != Ssh ==> r.ipFailed == t.ipFailed && r.ipSuccess == t.ipSuccess && r.userCount == t.userCount
    ensures d != Ssh ==> r.userFailed == t.userFailed && r.userSuccess == t.userSuccess
    ensures RelevantIp(d, line).None? ==> r == CountLockout(t, d, line)
    ensures forall ip :: d == Ssh && RelevantIp(d, line) == Some(ip) ==> UsersTallied(t, r, line, ip)
  {
    var c := Classify(t, d, line, resolve);
    var r := CountLockout(c, d, line);
    if d == Ssh && RelevantIp(d, line).Some? then
      UsersTalliedAlike(t, c, t, r, line, RelevantIp(d, line).value);
      r
    else r
  }

  /** The main loop over `lines`; it keeps the invariant. */
  function Run(t: Tables, d: Dialect, lines: seq<string>, resolve: string -> string): (r: Tables)
    ensures Inv(t) ==> Inv(r)
  {
    if lines == [] then t
    else
      var before := Run(t, d, lines[..|lines| - 1], resolve);
      StepKeepsInv(before, d, lines[|lines| - 1], resolve);
      Step(before, d, lines[|lines| - 1], resolve)
  }

  /** The number of lines counted under `ip`. */
  function Hits(d: Dialect, lines: seq<string>, ip: string): nat {
    if lines == [] then 0
    else Hits(d, lines[..|lines| - 1], ip) + Bit(RelevantIp(d, lines[|lines| - 1]) == Some(ip))
  }

  /** The number of lines counted at all. */
  function RelevantLines(d: Dialect, lines: seq<string>): nat {
    if lines == [] then 0
    else RelevantLines(d, lines[..|lines| - 1]) + Bit(RelevantIp(d, lines[|lines| - 1]).Some?)
  }

  /** The number of PAM reports about `ip`. */
  function LockoutHits(lines: seq<string>, ip: string): nat {
    if lines == [] then 0
    else LockoutHits(lines[..|lines| - 1], ip) + Bit(LockoutIp(lines[|lines| - 1]) == Some(ip))
  }

  lemma FillIpCountryKeepsInv(t: Tables, ip: string, resolve: string -> string)
    requires Inv(t)
    ensures Inv(FillIpCountry(t, ip, resolve))
  {
    var r := FillIpCountry(t, ip, resolve);
    assert ip in t.ipCountry.m <==> ip in t.ipCount.m;
    assert r.ipCount.keys == r.ipCountry.keys;
  }

  lemma FillUsrKeepsInv(t: Tables, line: string, ip: string)
    requires Inv(t)
    ensures Inv(FillUsr(t, line, ip))
  {
    var r := FillUsr(t, line, ip);
    assert r.ipCount == t.ipCount && r.ipCountry == t.ipCountry && r.queries == t.queries;
  }

  /** Counting a relevant line keeps the invariant. */
  lemma ClassifyKeepsInv(t: Tables, d: Dialect, line: string, resolve: string -> string)
    requires Inv(t)
    ensures Inv(Classify(t, d, line, resolve))
  {
    match RelevantIp(d, line)
    case None =>
    case Some(ip) =>
      var t1 := FillIpCountry(t, ip, resolve);
      FillIpCountryKeepsInv(t, ip, resolve);
      assert Classify(t, d, line, resolve) == ClassifyFound(t, d, line, ip, resolve);
      if d == Ssh {
        FillUsrKeepsInv(t1, line, ip);
      }
  }

  /** One turn of the loop keeps the invariant. */
  lemma StepKeepsInv(t: Tables, d: Dialect, line: string, resolve: string -> string)
    ensures Inv(t) ==> Inv(Step(t, d, line, resolve))
  {
    if Inv(t) {
      ClassifyKeepsInv(t, d, line, resolve);
    }
  }

  lemma StepIpCount(t: Tables, d: Dialect, line: string, resolve: string -> string)
    ensures forall ip :: Get(Step(t, d, line, resolve).ipCount, ip) == Get(t.ipCount, ip) + Bit(RelevantIp(d, line) == Some(ip))
    ensures Valid(t.ipCount) ==>
      Total(Step(t, d, line, resolve).ipCount) == Total(t.ipCount) + Bit(RelevantIp(d, line).Some?)
  {
    if Valid(t.ipCount) {
      ClassifyTotal(t, d, line, resolve);
    }
  }

  /** Each address's count is the number of lines counted under it. */
  lemma {:induction false} RunCountsPerIp(t: Tables, d: Dialect, lines: seq<string>, resolve: string -> string, ip: string)
    ensures Get(Run(t, d, lines, resolve).ipCount, ip) == Get(t.ipCount, ip) + Hits(d, lines, ip)
  {
    if lines != [] {
      RunCountsPerIp(t, d, lines[..|lines| - 1], resolve, ip);
      StepIpCount(Run(t, d, lines[..|lines| - 1], resolve), d, lines[|lines| - 1], resolve);
    }
  }

  /** The counts of all addresses together grow by one per counted line. */
  lemma {:induction false} RunCountsTotal(t: Tables, d: Dialect, lines: seq<string>, resolve: string -> string)
    requires Inv(t)
    ensures Total(Run(t, d, lines, resolve).ipCount) == Total(t.ipCount) + RelevantLines(d, lines)
  {
    if lines != [] {
      RunCountsTotal(t, d, lines[..|lines| - 1], resolve);
      StepIpCount(Run(t, d, lines[..|lines| - 1], resolve), d, lines[|lines| - 1], resolve);
    }
  }

  /** A log of the default dialect leaves every table as it was. */
  lemma {:induction false} DefaultTouchesNothing(t: Tables, lines: seq<string>, resolve: string -> string)
    ensures Run(t, Default, lines, resolve) == t
  {
    if lines != [] {
      DefaultTouchesNothing(t, lines[..|lines| - 1], resolve);
      RelevantIpExact(Default, lines[|lines| - 1]);
    }
  }

  /** PAM reports are counted in SSH logs only, one per report, whatever else the line is. */
  lemma {:induction false} RunCountsLockouts(t: Tables, d: Dialect, lines: seq<string>, resolve: string -> string, ip: string)
    ensures Get(Run(t, d, lines, resolve).ipLockout, ip)
            == Get(t.ipLockout, ip) + (if d == Ssh then LockoutHits(lines, ip) else 0)
  {
    if lines != [] {
      var init, last := lines[..|lines| - 1], lines[|lines| - 1];
      RunCountsLockouts(t, d, init, resolve, ip);
      var before := Run(t, d, init, resolve);
      assert Run(t, d, lines, resolve) == CountLockout(Classify(before, d, last, resolve), d, last);
      assert Classify(before, d, last, resolve).ipLockout == before.ipLockout;
    }
  }

  /** The main loop never touches the country totals. */
  lemma {:induction false} RunLeavesCountries(t: Tables, d: Dialect, lines: seq<string>, resolve: string -> string)
    ensures Run(t, d, lines, resolve).countryCount == t.countryCount
  {
    if lines != [] {
      RunLeavesCountries(t, d, lines[..|lines| - 1], resolve);
    }
  }

  /**
   * From empty tables, the geolocation service is asked exactly once about each address
   * that was counted, and about nothing else.
   */
  lemma ResolverOncePerIp(d: Dialect, lines: seq<string>, resolve: string -> string)
    ensures var r := Run(NoTables(), d, lines, resolve);
      && (forall i, j :: 0 <= i < j < |r.queries| ==> r.queries[i] != r.queries[j])
      && (forall ip :: ip in r.queries <==> Hits(d, lines, ip) > 0)
      && (forall ip :: ip in r.ipCountry.m <==> Hits(d, lines, ip) > 0)
  {
    var r := Run(NoTables(), d, lines, resolve);
    NoTablesInv();
    forall ip ensures ip in r.queries <==> Hits(d, lines, ip) > 0 {
      RunCountsPerIp(NoTables(), d, lines, resolve, ip);
    }
  }

  /** The sum of the counts of the addresses in `ips` that the table puts in country `c`. */
  function CountryShare(c: string, ips: seq<string>, country: map<string, string>, count: map<string, nat>): nat
    requires forall ip :: ip in ips ==> ip in country && ip in count
  {
    if ips == [] then 0
    else
      var ip := ips[|ips| - 1];
      CountryShare(c, ips[..|ips| - 1], country, count) + (if country[ip] == c then count[ip] else 0)
  }

  /** The loop of `fill_country_data` over the addresses `ips`, in order. */
  function CountryFold(cc: Dict<nat>, ips: seq<string>, country: map<string, string>, count: map<string, nat>): (r: Dict<nat>)
    requires forall ip :: ip in ips ==> ip in country && ip in count
    ensures Valid(cc) ==> Valid(r)
  {
    if ips == [] then cc
    else
      var ip := ips[|ips| - 1];
      Add(CountryFold(cc, ips[..|ips| - 1], country, count), country[ip], count[ip])
  }

  /** Each country gets the counts of the addresses resolved to it. */
  lemma {:induction false} CountryFoldShares(cc: Dict<nat>, ips: seq<string>, country: map<string, string>, count: map<string, nat>, c: string)
    requires forall ip :: ip in ips ==> ip in country && ip in count
    ensures Get(CountryFold(cc, ips, country, count), c) == Get(cc, c) + CountryShare(c, ips, country, count)
  {
    if ips != [] {
      CountryFoldShares(cc, ips[..|ips| - 1], country, count, c);
    }
  }

  lemma CountryFoldAllShares(cc: Dict<nat>, ips: seq<string>, country: map<string, string>, count: map<string, nat>)
    requires forall ip :: ip in ips ==> ip in country && ip in count
    ensures forall c :: Get(CountryFold(cc, ips, country, count), c) == Get(cc, c) + CountryShare(c, ips, country, count)
  {
    forall c ensures Get(CountryFold(cc, ips, country, count), c) == Get(cc, c) + CountryShare(c, ips, country, count) {
      CountryFoldShares(cc, ips, country, count, c);
    }
  }

  /** The country totals together grow by the counts of all the addresses folded in. */
  lemma {:induction false} CountryFoldTotal(cc: Dict<nat>, ips: seq<string>, country: map<string, string>, count: map<string, nat>)
    requires Valid(cc)
    requires forall ip :: ip in ips ==> ip in country && ip in count
    ensures Total(CountryFold(cc, ips, country, count)) == Total(cc) + SumOver(ips, count)
  {
    if ips != [] {
      var ip := ips[|ips| - 1];
      CountryFoldTotal(cc, ips[..|ips| - 1], country, count);
      TotalAdd(CountryFold(cc, ips[..|ips| - 1], country, count), country[ip], count[ip]);
    }
  }

  /** `fill_country_data`; it needs every address of the country table to be counted. */
  function FillCountry(t: Tables): (r: Tables)
    requires forall ip :: ip in t.ipCountry.keys ==> ip in t.ipCountry.m && ip in t.ipCount.m
    ensures r.(countryCount := t.countryCount) == t
    ensures forall c :: Get(r.countryCount, c) == Get(t.countryCount, c) + CountryShare(c, t.ipCountry.keys, t.ipCountry.m, t.ipCount.m)
  {
    CountryFoldAllShares(t.countryCount, t.ipCountry.keys, t.ipCountry.m, t.ipCount.m);
    t.(countryCount := CountryFold(t.countryCount, t.ipCountry.keys, t.ipCountry.m, t.ipCount.m))
  }

  /**
   * Started from an empty country table, each country holds the counts of its addresses,
   * and the country totals add up to the address totals.
   */
  lemma CountriesSumIps(t: Tables)
    requires Inv(t) && t.countryCount == Empty()
    ensures forall c :: Get(FillCountry(t).countryCount, c) == CountryShare(c, t.ipCount.keys, t.ipCountry.m, t.ipCount.m)
    ensures Total(FillCountry(t).countryCount) == Total(t.ipCount)
  {
    forall c ensures Get(FillCountry(t).countryCount, c) == CountryShare(c, t.ipCount.keys, t.ipCountry.m, t.ipCount.m) {
      CountryFoldShares(t.countryCount, t.ipCountry.keys, t.ipCountry.m, t.ipCount.m, c);
    }
    CountryFoldTotal(t.countryCount, t.ipCountry.keys, t.ipCountry.m, t.ipCount.m);
  }
}

=== FILE: text.dfy ===
/** Plain string helpers shared by the log analyser's modules. */
module Text {
  /** `t` occurs in `s` at position `i`. */
  predicate OccursAt(s: string, t: string, i: nat) {
    i + |t| <= |s| && s[i..i + |t|] == t
  }

  /** `t in s` on strings: `t` occurs somewhere in `s`. */
  function Contains(s: string, t: string): (r: bool)
    ensures r <==> exists i: nat :: OccursAt(s, t, i)
    decreases |s|
  {
    if |t| > |s| then false
    else if s[..|t|] == t then (assert OccursAt(s, t, 0); true)
    else (ContainsShift(s, t); Contains(s[1..], t))
  }

  lemma ContainsShift(s: string, t: string)
    requires |t| <= |s| && s[..|t|] != t
    ensures (exists i: nat :: OccursAt(s, t, i)) <==> exists i: nat :: OccursAt(s[1..], t, i)
  {
    if exists i: nat :: OccursAt(s, t, i) {
      var i: nat :| OccursAt(s, t, i);
      assert i != 0;
      assert s[1..][i - 1..i - 1 + |t|] == s[i..i + |t|];
      assert OccursAt(s[1..], t, i - 1);
    }
    if exists i: nat :: OccursAt(s[1..], t, i) {
      var i: nat :| OccursAt(s[1..], t, i);
      assert s[1..][i..i + |t|] == s[i + 1..i + 1 + |t|];
      assert OccursAt(s, t, i + 1);
    }
  }

  /** `t` starts nowhere in `s` before position `n`. */
  predicate FreeBefore(s: string, t: string, n: nat) {
    forall i :: 0 <= i < n ==> !OccursAt(s, t, i)
  }

  /** A text free of `t` at every position does not contain it. */
  lemma FreeNotContains(s: string, t: string)
    requires FreeBefore(s, t, |s| + 1)
    ensures !Contains(s, t)
  {
  }
}

=== FILE: wrappers.dfy ===
/** The optional value used wherever a Python call may return None. */
module Wrappers {
  datatype Option<+T> = None | Some(value: T)
}
